=== FILE: README.md ===
# Car health panel: verified model of the sample pipeline

The car health panel is a PyQt dashboard. A capture thread streams webcam frames to an inference backend
over a WebSocket and receives rPPG (remote photoplethysmography) samples and a heart rate back. The
main window stages those samples and drains them, on a 50 ms timer, into a sliding plot window. A
small music-player panel simulates playback progress.

This project models the statable core of that program in Dafny and proves what it promises:

- `dashboard.dfy` models the main window's staging buffer and plot window. It is a class whose
  methods update the fields in place. Ghost histories record every pair that ever arrived and
  every pair ever drained, so the invariant can state conservation and order: the plot is always
  the last 500 pairs drained.
- `capture_helpers.dfy` models the capture worker's pure helpers:
  - the backend URL (`rstrip('/')` plus `urlencode`), with a parse-back lemma;
  - JPEG-plus-base64 frame encoding, with the encoder as a parameter;
  - the outbound envelope, with a read-back function.
- `camera_thread.dfy` models the capture worker's behaviour:
  - the inbound message handler, on the parsed JSON value;
  - the paced send loop, run over a scripted camera. The result is the trace of what it shows,
    sends, sleeps and releases.
- `music_player.dfy` models the play/pause toggle and the wrapping progress counter, as a class.
- Supporting modules:
  - `base64.dfy`: the encoding of section 4 of RFC 4648, with a decoder and a round trip;
  - `url.dfy`: `quote_plus` over UTF-8 (RFC 3629) and `urlencode`, with the unquote round trip;
  - `json.dfy`: parsed JSON values and Python's `dict.get`;
  - `common.dfy`: `Option`/`Result`, Python's `s[-n:]` as `Last`, and `max(0, x)`.

Python floats are modelled as exact reals and Python ints as unbounded integers.

Two behaviours of the code deserve notice, because a reader of the loop might expect otherwise:

- A JPEG encoding failure is raised out of `send_frames` and ends the coroutine. The frame is not
  dropped with the loop carrying on (opencv_widget.py:106, 37).
- The camera is released only when the loop ends because the thread stopped running. It is not
  released when an error escapes the loop (opencv_widget.py:92-111).

## Model

| member | source | states |
|---|---|---|
| Common.Last | health_dashboard.py:251-252 | Python's `s[-n:]`: the result has `min(len(s), n)` elements and is a suffix of `s` |
| Common.LastOfAppend | health_dashboard.py:244-252 | trimming a list to its last n, appending, then trimming again gives the same window as trimming the whole concatenation |
| Common.Max0 | opencv_widget.py:110 | `max(0, x)` is non-negative, at least `x`, and is either `x` or 0 |
| Dashboard.Linspace | health_dashboard.py:237 | `np.linspace` gives exactly `num` values, starting at `start` and ending at `stop` when there are two or more |
| Dashboard.LinspaceAscending | health_dashboard.py:237 | the generated times never decrease when the span ascends |
| Dashboard.HealthDashboard.constructor | health_dashboard.py:26-59 | both buffers and the plot start empty, `begin_time` is 0, `step_size` is 10 and the label is the placeholder; the invariant holds |
| Dashboard.HealthDashboard.Window | health_dashboard.py:249-252 | under the invariant, both plot lists have equal length `min(drained, 500)` and are the most recent drained pairs in arrival order |
| Dashboard.HealthDashboard.UpdateFromCamera | health_dashboard.py:233-239 | an empty list changes nothing; otherwise the samples are appended, one evenly spaced time per sample over `[begin_time, begin_time + 10]` is appended, `begin_time` advances by 10, the label is set, and the plot is untouched; the samples and their times both join the arrival history and nothing is drained, so the buffers stay parallel |
| Dashboard.HealthDashboard.CheckBuffer | health_dashboard.py:241-253 | at most one staged pair changes nothing; otherwise the first `min(3, len)` pairs leave both buffers together, the window becomes the last 500 of old window plus chunk, nothing is lost or reordered (conservation), and the invariant is kept |
| Base64.CharOf | opencv_widget.py:38 | each 6-bit value maps to an alphabet character that decodes back to it |
| Base64.Encode | opencv_widget.py:38 | `b64encode` output has length `4 * ceil(n / 3)` and uses only the alphabet and `=` |
| Base64.DecodeEncode | opencv_widget.py:38 | decoding an encoding gives the original bytes back |
| UrlEncoding.Utf8Char | opencv_widget.py:31-32 | a character encodes to 1 to 4 bytes, and to one byte equal to itself exactly when it is ASCII |
| UrlEncoding.Utf8RoundTrip | opencv_widget.py:31-32 | UTF-8 decoding inverts UTF-8 encoding |
| UrlEncoding.HexDigit | opencv_widget.py:31-32 | a nibble becomes an upper-case hex digit that reads back as the same value |
| UrlEncoding.QuoteBytes | opencv_widget.py:31-32 | quoted bytes use only unreserved characters, `+` and `%` |
| UrlEncoding.QuotePlus | opencv_widget.py:31-32 | `quote_plus` output contains none of the URL delimiters `/ ? & =` |
| UrlEncoding.UnquotePlusQuotePlus | opencv_widget.py:31-32 | `unquote_plus(quote_plus(s)) == s` for every string |
| UrlEncoding.UrlEncode | opencv_widget.py:32 | `urlencode` gives the empty query exactly for no parameters |
| UrlEncoding.UrlEncodeRoundTrip | opencv_widget.py:32 | splitting the query at `&` and `=` and unquoting gives back the parameters, in order, whatever their keys and values |
| UrlEncoding.QuotePlusUnreserved | opencv_widget.py:31-32 | strings of unreserved characters are left as they are |
| CaptureHelpers.RStripSlash | opencv_widget.py:32 | `rstrip('/')` returns a prefix that does not end in `/`, and only slashes are removed |
| CaptureHelpers.BuildWsUrl | opencv_widget.py:29-32 | the URL is the stripped base, `/?api_key=`, the quoted key, `&client=qtClient`, in that order |
| CaptureHelpers.WsUrlRoundTrip | opencv_widget.py:29-32 | splitting the URL recovers exactly the stripped base and the original API key |
| CaptureHelpers.EncodeFrameJpeg | opencv_widget.py:34-38 | fails with "JPEG encoding failed" exactly when the encoder reports failure; otherwise returns `b64encode` of the encoder's bytes, which decodes back to those bytes |
| CaptureHelpers.BuildPayload | opencv_widget.py:40-47 | the envelope has exactly the five keys, `state` "stream", `advanced` true, and the three arguments read back unchanged |
| CameraThread.NatToDecimal | opencv_widget.py:71 | decimal text of a natural number is non-empty, all digits, and starts with 0 only for 0 |
| CameraThread.DecimalRoundTrip | opencv_widget.py:71 | reading the decimal text back gives the number |
| CameraThread.IntToDecimalRoundTrip | opencv_widget.py:71 | `int(str(i)) == i` for every integer |
| CameraThread.PyStr | opencv_widget.py:71 | `str()` of a string is itself and of an integer is text that parses back to it |
| CameraThread.Tail | opencv_widget.py:69-70 | `v[-256:]` succeeds exactly on lists and strings and gives the last `min(len(v), 256)` items or characters; any other value raises |
| CameraThread.HandleAdvanced | opencv_widget.py:69-76 | once the message and its `advanced` are dictionaries, the handler fails exactly when `inference` is present and not a dictionary or `advanced` is malformed, and emits exactly when it does not fail and the sample list is non-empty; an emission holds the most recent 256 samples and timestamps and the heart-rate text |
| CameraThread.HandleServerMessage | opencv_widget.py:66-76 | the handler fails (the error is caught and logged) exactly when the message is not well formed; it emits exactly when it is well formed with a non-empty sample list; an emission holds 1 to 256 samples and at most 256 timestamps, each the most recent part of its inbound list, plus the heart-rate text (empty when `inference.hr` is absent) |
| CameraThread.ForwardsSamples | opencv_widget.py:66-74 | a message with three samples and integer heart rate 72 is forwarded whole with heart rate "72" |
| CameraThread.KeepsMostRecent | opencv_widget.py:69-74 | of more than 256 samples, exactly the last 256 are forwarded; absent timestamps and heart rate default to empty |
| CameraThread.EmptyMessageIgnored | opencv_widget.py:69-72 | a dictionary without `advanced` never emits; it is an error exactly when its `inference` is present and not a dictionary |
| CameraThread.Filter | opencv_widget.py:92-110 | a filtered view of the events is no longer than the trace, and every element passes the filter |
| CameraThread.FilterAppend | opencv_widget.py:92-110 | filtering distributes over concatenation |
| CameraThread.OkReads | opencv_widget.py:94-97 | the successful reads are all frames |
| CameraThread.ProgressAtStart | opencv_widget.py:90-91 | before the first read, nothing is counted, sent or slept |
| CameraThread.StopAtZeroRate | opencv_widget.py:93 | with a zero frame rate the first deadline raises before any read |
| CameraThread.ProgressAfterFailedRead | opencv_widget.py:94-97 | a failed read adds one 10 ms back-off and leaves the frame count, envelopes and pacing unchanged |
| CameraThread.ShownFrame | opencv_widget.py:99-103 | a read frame is shown first; it is the next frame in read order |
| CameraThread.StopAfterShown | opencv_widget.py:106-108 | an encoder or send failure ends the loop after the frame was shown, with the frame count unchanged |
| CameraThread.EnvelopeCarries | opencv_widget.py:106-107 | the envelope built for a frame that is encoded and sent carries its id, timestamp and JPEG bytes |
| CameraThread.SentAndPaced | opencv_widget.py:108-110 | sending and pacing frame k adds its envelope and a sleep until `start + k / fps`, clamped at 0 |
| CameraThread.ProgressAfterSentFrame | opencv_widget.py:99-110 | a read frame that is encoded and sent moves the loop on with the count increased by one |
| CameraThread.ReadOnce | opencv_widget.py:92-110 | one pass raises exactly when its read gave a frame that cannot be encoded or sent: an encoder error if the encoder refused it, a send error otherwise, after adding only the frame shown; a failed read adds one 10 ms back-off; a frame that goes through adds its display, its envelope and its sleep until `start + frameCount / fps`, and the count grows by one; the loop state is kept in every case |
| CameraThread.StreamFrames | opencv_widget.py:90-110 | the loop ends with every read consumed and the state kept, or stopped with an error and its cause; every frame counted as sent was encoded and sent, so the error is met on the first frame that fails |
| CameraThread.SendFrames | opencv_widget.py:82-111 | an unopened camera gives exactly one "Cannot open camera" message, and an opened one gives none; the j-th frame shown is the j-th frame read; frame j's envelope carries that frame's id, timestamp and base64 JPEG, and its sleep waits for `start + j / fps`; every sleep is ≥ 0 and every retry waits 10 ms; on a normal exit every read frame was shown, encoded and sent without error, each failed read caused one back-off, and the camera is released once, last; when every frame goes through and the rate is non-zero, the exit is normal; on an error exit the camera is not released and the error has its cause: a division error only for a zero rate before the first read, an encoder or send error on the first frame read that fails (every earlier frame was encoded and sent; a send error only for a frame that was encoded), which was shown first |
| MusicPlayer.NextProgress | music_player.py:110-115 | one tick gives `(v + 1) mod 101`, within 0 to 100 |
| MusicPlayer.ProgressAfter | music_player.py:110-115 | progress after any number of ticks from 0 stays within 0 to 100 |
| MusicPlayer.ProgressCycles | music_player.py:110-115 | after n ticks from 0 the bar shows `n mod 101` |
| MusicPlayer.MusicPlayerWidget.constructor | music_player.py:56-97 | the player starts paused, timer stopped, progress 0, play icon shown |
| MusicPlayer.MusicPlayerWidget.TogglePlay | music_player.py:101-108 | `playing` is negated; the timer runs at 200 ms exactly when playing, and on pause it stops with its interval kept; the icon follows; progress is kept |
| MusicPlayer.MusicPlayerWidget.UpdateProgress | music_player.py:110-115 | the progress becomes its successor modulo 101 and nothing else changes; it stays within 0 to 100 |
| MusicPlayer.ToggleTwice | music_player.py:101-108 | two toggles restore the playing flag, the timer's state, the icon and the progress |

## Left out

- `websocket_task`, `listen_to_server`, `run` and `stop` (opencv_widget.py:62-64, 115-148) are left out. They are asyncio tasks, network I/O and thread start/join. The `running` flag is represented by the length of the scripted read sequence.
- Camera configuration (`cap.set` of width, height and FPS) and the BGR-to-RGB and `QImage` conversion are left out. The trace records the raw frame as shown.
- `cap.isOpened()`, `cv2.VideoCapture.read`, `cv2.imencode`, `ws.send`, `time.perf_counter`, `time.time` and `uuid4` are inputs. `cap.isOpened()` is the `cameraOpen` parameter and `cv2.imencode` the `imencode` parameter. The others are the fields of each scripted read; whether `ws.send` succeeded is its `sendOk` field.
- CameraThread.SendFrames: the trace is described through its per-kind views (frames shown, envelopes, pacing sleeps, back-offs) and where the release sits. The contract does not state the order between kinds, namely that each read adds either one back-off or a shown frame, its envelope and its sleep, in that order.
- `orjson.loads` is not modelled. The handler takes its result, and `None` stands for a parse error. `orjson.dumps` is not modelled either: a sent envelope is the JSON value, not its text.
- CameraThread.PyStr: `str()` of a float, list or dictionary uses Python's repr, which is the `repr` parameter and is not modelled.
- Python floats are exact reals, so `np.linspace` and the deadline arithmetic carry no rounding.
- The environment-driven configuration (opencv_widget.py:21-25) is left out. The backend base, API key, frame rate and JPEG quality are parameters of the modelled operations.
- The unused `frame_buffer` deque (opencv_widget.py:60) is left out.
- `rppg_curve.setData` (health_dashboard.py:253) only redraws the plot from `x_data` and `y_data`, so it is left out.
- The fuel bar, the clock labels, the speedometer, the layout and the signal relays of `CameraWidget` are UI only and are left out.
- The music player's previous/next buttons, volume slider and track label have no behaviour in the source and are left out.

=== FILE: base64.dfy ===
/** The base64 encoding of section 4 of RFC 4648 (standard alphabet, `=`
    padding), as produced by Python's `base64.b64encode`, and a decoder that
    inverts it. */
module Base64 {
  import opened Common

  type Sextet = x: int | 0 <= x < 64

  /** Table 1 of RFC 4648: the character for a 6-bit value. */
  function CharOf(v: Sextet): (c: char)
    ensures IsAlphabetChar(c) && ValueOf(c) == v
  {
    if v < 26 then ('A' as int + v) as char
    else if v < 52 then ('a' as int + v - 26) as char
    else if v < 62 then ('0' as int + v - 52) as char
    else if v == 62 then '+'
    else '/'
  }

  predicate IsAlphabetChar(c: char)
  {
    'A' <= c <= 'Z' || 'a' <= c <= 'z' || '0' <= c <= '9' || c == '+' || c == '/'
  }

  /** The 6-bit value a character of the alphabet stands for. */
  function ValueOf(c: char): Sextet
    requires IsAlphabetChar(c)
  {
    if 'A' <= c <= 'Z' then c as int - 'A' as int
    else if 'a' <= c <= 'z' then c as int - 'a' as int + 26
    else if '0' <= c <= '9' then c as int - '0' as int + 52
    else if c == '+' then 62
    else 63
  }

  /** Three bytes, 24 bits, as four characters. */
  function EncodeTriple(b0: Byte, b1: Byte, b2: Byte): string
  {
    [CharOf(b0 / 4), CharOf((b0 % 4) * 16 + b1 / 16), CharOf((b1 % 16) * 4 + b2 / 64), CharOf(b2 % 64)]
  }

  /** `b64encode`: full groups of three bytes, then a final group of one or
      two bytes padded with `=` to four characters. */
  function Encode(bs: seq<Byte>): (s: string)
    ensures |s| == 4 * ((|bs| + 2) / 3)
    ensures forall i :: 0 <= i < |s| ==> IsAlphabetChar(s[i]) || s[i] == '='
  {
    if |bs| == 0 then ""
    else if |bs| == 1 then [CharOf(bs[0] / 4), CharOf((bs[0] % 4) * 16), '=', '=']
    else if |bs| == 2 then [CharOf(bs[0] / 4), CharOf((bs[0] % 4) * 16 + bs[1] / 16), CharOf((bs[1] % 16) * 4), '=']
    else EncodeTriple(bs[0], bs[1], bs[2]) + Encode(bs[3..])
  }

  /** Four characters of the alphabet back to three bytes. */
  function DecodeQuad(c0: char, c1: char, c2: char, c3: char): Option<seq<Byte>>
  {
    if !(IsAlphabetChar(c0) && IsAlphabetChar(c1) && IsAlphabetChar(c2) && IsAlphabetChar(c3)) then None
    else
      var v0: int, v1: int, v2: int, v3: int := ValueOf(c0), ValueOf(c1), ValueOf(c2), ValueOf(c3);
      Some([v0 * 4 + v1 / 16, (v1 % 16) * 16 + v2 / 4, (v2 % 4) * 64 + v3])
  }

  /** The last group of four characters, which may carry one or two `=`. */
  function DecodeLast(q: string): Option<seq<Byte>>
    requires |q| == 4
  {
    if q[2] == '=' && q[3] == '=' then
      if IsAlphabetChar(q[0]) && IsAlphabetChar(q[1]) then
        Some([ValueOf(q[0]) * 4 + ValueOf(q[1]) / 16])
      else None
    else if q[3] == '=' then
      if IsAlphabetChar(q[0]) && IsAlphabetChar(q[1]) && IsAlphabetChar(q[2]) then
        var v1: int, v2: int := ValueOf(q[1]), ValueOf(q[2]);
        Some([ValueOf(q[0]) * 4 + v1 / 16, (v1 % 16) * 16 + v2 / 4])
      else None
    else DecodeQuad(q[0], q[1], q[2], q[3])
  }

  /** Decoding: a multiple of four characters, padding only in the last group;
      anything else is rejected. */
  function Decode(s: string): Option<seq<Byte>>
  {
    if |s| == 0 then Some([])
    else if |s| < 4 || |s| % 4 != 0 then None
    else if |s| == 4 then DecodeLast(s)
    else match DecodeQuad(s[0], s[1], s[2], s[3])
      case None => None
      case Some(head) =>
        match Decode(s[4..])
        case None => None
        case Some(tail) => Some(head + tail)
  }

  lemma DivMod16(a: int, r: int)
    requires 0 <= r < 16
    ensures (a * 16 + r) / 16 == a && (a * 16 + r) % 16 == r
  {
  }

  lemma DivMod4(a: int, r: int)
    requires 0 <= r < 4
    ensures (a * 4 + r) / 4 == a && (a * 4 + r) % 4 == r
  {
  }

  /** The bit shuffling of a group, undone: the three bytes come back from
      their four sextets. */
  lemma Regroup(b0: Byte, b1: Byte, b2: Byte)
    ensures var v1, v2 := (b0 % 4) * 16 + b1 / 16, (b1 % 16) * 4 + b2 / 64;
      && (b0 / 4) * 4 + v1 / 16 == b0
      && (v1 % 16) * 16 + v2 / 4 == b1
      && (v2 % 4) * 64 + b2 % 64 == b2
  {
    DivMod16(b0 % 4, b1 / 16);
    DivMod4(b1 % 16, b2 / 64);
  }

  lemma DecodeEncodeTriple(b0: Byte, b1: Byte, b2: Byte)
    ensures var q := EncodeTriple(b0, b1, b2); DecodeQuad(q[0], q[1], q[2], q[3]) == Some([b0, b1, b2])
  {
    Regroup(b0, b1, b2);
  }

  lemma DecodeEncodeOne(b0: Byte)
    ensures DecodeLast(Encode([b0])) == Some([b0])
  {
    var q := Encode([b0]);
    assert q == [CharOf(b0 / 4), CharOf((b0 % 4) * 16), '=', '='];
    DivMod16(b0 % 4, 0);
    assert ValueOf(q[0]) * 4 + ValueOf(q[1]) / 16 == b0;
  }

  lemma DecodeEncodeTwo(b0: Byte, b1: Byte)
    ensures DecodeLast(Encode([b0, b1])) == Some([b0, b1])
  {
    var q := Encode([b0, b1]);
    assert q == [CharOf(b0 / 4), CharOf((b0 % 4) * 16 + b1 / 16), CharOf((b1 % 16) * 4), '='];
    Regroup(b0, b1, 0);
    var v1: int, v2: int := ValueOf(q[1]), ValueOf(q[2]);
    assert ValueOf(q[0]) * 4 + v1 / 16 == b0;
    assert (v1 % 16) * 16 + v2 / 4 == b1;
  }

  lemma DecodeGroups(q: string, rest: string, head: seq<Byte>, tail: seq<Byte>)
    requires |q| == 4 && |rest| > 0
    requires DecodeQuad(q[0], q[1], q[2], q[3]) == Some(head)
    requires Decode(rest) == Some(tail)
    ensures Decode(q + rest) == Some(head + tail)
  {
    var s := q + rest;
    assert |rest| % 4 == 0 by {
      assert rest != [] && Decode(rest).Some?;
    }
    assert s[0] == q[0] && s[1] == q[1] && s[2] == q[2] && s[3] == q[3];
    assert s[4..] == rest;
  }

  lemma DecodeEncodeThree(b0: Byte, b1: Byte, b2: Byte)
    ensures Decode(Encode([b0, b1, b2])) == Some([b0, b1, b2])
  {
    var q := EncodeTriple(b0, b1, b2);
    assert [b0, b1, b2][3..] == [];
    assert Encode([b0, b1, b2]) == q + Encode([]) == q;
    DecodeEncodeTriple(b0, b1, b2);
    assert IsAlphabetChar(q[2]) && IsAlphabetChar(q[3]);
  }

  /** Round trip: decoding what `Encode` produced gives the bytes back. */
  lemma {:induction false} DecodeEncode(bs: seq<Byte>)
    ensures Decode(Encode(bs)) == Some(bs)
  {
    if |bs| == 1 {
      DecodeEncodeOne(bs[0]);
      assert bs == [bs[0]];
    } else if |bs| == 2 {
      DecodeEncodeTwo(bs[0], bs[1]);
      assert bs == [bs[0], bs[1]];
    } else if |bs| == 3 {
      DecodeEncodeThree(bs[0], bs[1], bs[2]);
      assert bs == [bs[0], bs[1], bs[2]];
    } else if |bs| > 3 {
      var head := [bs[0], bs[1], bs[2]];
      var q := EncodeTriple(bs[0], bs[1], bs[2]);
      var rest := Encode(bs[3..]);
      assert Encode(bs) == q + rest;
      assert bs == head + bs[3..];
      DecodeEncodeTriple(bs[0], bs[1], bs[2]);
      DecodeEncode(bs[3..]);
      DecodeGroups(q, rest, head, bs[3..]);
    }
  }
}

=== FILE: camera_thread.dfy ===
/** The capture worker's two halves: the handler of inbound backend messages
    and the paced loop that reads the camera and streams encoded frames. */
module CameraThread {
  import opened Common
  import opened Json
  import opened CaptureHelpers
  import Base64

  /** At most this many of the most recent samples are forwarded. */
  const MaxSamples: nat := 256

  // ---------------- Python's str() of a parsed value ----------------

  function DigitChar(d: int): (c: char)
    requires 0 <= d < 10
    ensures IsDigit(c) && DigitValue(c) == d
  {
    ('0' as int + d) as char
  }

  predicate IsDigit(c: char)
  {
    '0' <= c <= '9'
  }

  function DigitValue(c: char): int
    requires IsDigit(c)
  {
    c as int - '0' as int
  }

  predicate AllDigits(s: string)
  {
    forall i :: 0 <= i < |s| ==> IsDigit(s[i])
  }

  /** Decimal digits of a natural number, most significant first, with no
      leading zero. */
  function NatToDecimal(n: nat): (s: string)
    ensures |s| >= 1 && AllDigits(s)
    ensures s[0] == '0' <==> n == 0
  {
    if n < 10 then [DigitChar(n)] else NatToDecimal(n / 10) + [DigitChar(n % 10)]
  }

  /** The number a string of decimal digits denotes. */
  function DecimalValue(s: string): nat
    requires AllDigits(s)
  {
    if s == [] then 0 else DecimalValue(s[..|s| - 1]) * 10 + DigitValue(s[|s| - 1])
  }

  lemma {:induction false} DecimalRoundTrip(n: nat)
    ensures DecimalValue(NatToDecimal(n)) == n
  {
    if n >= 10 {
      var s := NatToDecimal(n);
      assert s[..|s| - 1] == NatToDecimal(n / 10);
      DecimalRoundTrip(n / 10);
    }
  }

  /** `str()` of an integer: an optional minus sign, then its digits. */
  function IntToDecimal(i: int): string
  {
    if i < 0 then "-" + NatToDecimal(-i) else NatToDecimal(i)
  }

  /** Reads a decimal integer as `int()` would, or None. */
  function ParseInt(s: string): Option<int>
  {
    if |s| >= 2 && s[0] == '-' && AllDigits(s[1..]) then Some(-(DecimalValue(s[1..]) as int))
    else if |s| >= 1 && AllDigits(s) then Some(DecimalValue(s))
    else None
  }

  /** An integer heart rate reaches the dashboard as text the number can be
      read back from. */
  lemma IntToDecimalRoundTrip(i: int)
    ensures ParseInt(IntToDecimal(i)) == Some(i)
  {
    var s := IntToDecimal(i);
    if i < 0 {
      var digits := NatToDecimal(-i);
      assert s[0] == '-' && s[1..] == digits;
      DecimalRoundTrip(-i);
    } else {
      assert s == NatToDecimal(i) && IsDigit(s[0]);
      DecimalRoundTrip(i);
    }
  }

  /** Python's `str(v)` of a parsed value. Strings are themselves, integers
      their decimal digits, booleans and null their Python names; floats,
      lists and dictionaries use Python's repr, which is a parameter. */
  function PyStr(v: Json, repr: Json -> string): (s: string)
    ensures v.Str? ==> s == v.s
    ensures v.Int? ==> ParseInt(s) == Some(v.i)
  {
    match v
    case Str(t) => t
    case Int(i) => IntToDecimalRoundTrip(i); IntToDecimal(i)
    case Bool(b) => if b then "True" else "False"
    case Null => "None"
    case _ => repr(v)
  }

  // ---------------- handle_server_message ----------------

  /** The result of slicing `[-256:]`: a list, or text when the value was a
      string (Python slices those too). */
  datatype Sliced = SlicedList(items: seq<Json>) | SlicedText(text: string)
  {
    predicate IsEmpty()
    {
      match this
      case SlicedList(items) => items == []
      case SlicedText(text) => text == []
    }
  }

  /** `v[-256:]`, or None for the TypeError of a value that cannot be sliced. */
  function Tail(v: Json): (r: Option<Sliced>)
    ensures r.Some? <==> v.Arr? || v.Str?
    ensures v.Arr? ==>
      && r.value.SlicedList? && |r.value.items| == Min(|v.items|, MaxSamples)
      && r.value.items == v.items[|v.items| - |r.value.items|..]
    ensures v.Str? ==>
      && r.value.SlicedText? && |r.value.text| == Min(|v.s|, MaxSamples)
      && r.value.text == v.s[|v.s| - |r.value.text|..]
  {
    match v
    case Arr(items) => Some(SlicedList(Last(items, MaxSamples)))
    case Str(s) => Some(SlicedText(Last(s, MaxSamples)))
    case _ => None
  }

  /** What handling one message led to: the samples and heart-rate text
      forwarded to the dashboard, nothing (no samples), or the error that was
      caught and logged. */
  datatype Reaction = Emitted(rppg: seq<Json>, timestamps: seq<Json>, heartRate: string) | NoSamples | Failed

  /** `handle_server_message`, on what `orjson.loads` made of the text (None
      when it raised). The first lookup, `data.get("advanced", {})`, raises
      unless the message is a dictionary, and the `.get` on its result raises
      unless that is a dictionary too. */
  function HandleServerMessage(parsed: Option<Json>, repr: Json -> string): (r: Reaction)
    ensures r.Failed? <==> !WellFormed(parsed)
    ensures r.Emitted? <==> WellFormed(parsed) && Samples(parsed.value, "rppg") != []
    ensures r.Emitted? ==>
      && 1 <= |r.rppg| <= MaxSamples && |r.timestamps| <= MaxSamples
      && r.rppg == Last(Samples(parsed.value, "rppg"), MaxSamples)
      && r.timestamps == Last(Samples(parsed.value, "rppg_timestamps"), MaxSamples)
      && r.heartRate == HeartRateText(parsed.value, repr)
  {
    match parsed
    case None => Failed
    case Some(data) =>
      match Get(data, "advanced", Obj(map[]))
      case None => Failed
      case Some(advanced) =>
        if !advanced.Obj? then Failed
        else HandleAdvanced(data.fields, advanced.fields, repr)
  }

  /** The rest of the handler, once the message `data` and its `advanced`
      are dictionaries. Python evaluation order is kept: the samples, the
      timestamps and the heart rate are looked up before the emptiness test,
      and the signal rejects arguments that are not lists. */
  function HandleAdvanced(data: map<string, Json>, advanced: map<string, Json>, repr: Json -> string): (r: Reaction)
    ensures r.Failed? <==> !(DictOrAbsent(Member(data, "inference")) && AdvancedWellFormed(advanced))
    ensures r.Emitted? <==> !r.Failed? && AdvancedSamples(advanced, "rppg") != []
    ensures r.Emitted? ==>
      && r.rppg == Last(AdvancedSamples(advanced, "rppg"), MaxSamples)
      && r.timestamps == Last(AdvancedSamples(advanced, "rppg_timestamps"), MaxSamples)
      && r.heartRate == HeartRateText(Obj(data), repr)
  {
    match Tail(GetOr(advanced, "rppg", Arr([])))
    case None => Failed
    case Some(rppg) =>
      match Tail(GetOr(advanced, "rppg_timestamps", Arr([])))
      case None => Failed
      case Some(timestamps) =>
        var inference := GetOr(data, "inference", Obj(map[]));
        if !inference.Obj? then Failed
        else
          var heartRate := PyStr(GetOr(inference.fields, "hr", Str("")), repr);
          if rppg.IsEmpty() then NoSamples
          else if rppg.SlicedList? && timestamps.SlicedList? then
            Emitted(rppg.items, timestamps.items, heartRate)
          else Failed
  }

  /** The value under `key` of a dictionary, when it has one. */
  function Member(d: map<string, Json>, key: string): Option<Json>
  {
    if key in d then Some(d[key]) else None
  }

  /** Present members must be dictionaries. */
  predicate DictOrAbsent(v: Option<Json>)
  {
    v.None? || v.value.Obj?
  }

  /** Present members must be lists or strings. */
  predicate SliceableOrAbsent(v: Option<Json>)
  {
    v.None? || v.value.Arr? || v.value.Str?
  }

  predicate NonEmptyText(v: Option<Json>)
  {
    v.Some? && v.value.Str? && v.value.s != []
  }

  predicate IsText(v: Option<Json>)
  {
    v.Some? && v.value.Str?
  }

  /** The `advanced` dictionary of a message, empty when it is missing or is
      not a dictionary. */
  function AdvancedOf(data: map<string, Json>): map<string, Json>
  {
    if "advanced" in data && data["advanced"].Obj? then data["advanced"].fields else map[]
  }

  /** The list under `key` of an `advanced` dictionary, empty when it is
      missing or is not a list. */
  function AdvancedSamples(advanced: map<string, Json>, key: string): seq<Json>
  {
    if key in advanced && advanced[key].Arr? then advanced[key].items else []
  }

  /** The sample and timestamp members, where present, are lists or strings,
      and non-empty samples are not text nor paired with text timestamps. */
  predicate AdvancedWellFormed(advanced: map<string, Json>)
  {
    && SliceableOrAbsent(Member(advanced, "rppg"))
    && SliceableOrAbsent(Member(advanced, "rppg_timestamps"))
    && !NonEmptyText(Member(advanced, "rppg"))
    && !(AdvancedSamples(advanced, "rppg") != [] && IsText(Member(advanced, "rppg_timestamps")))
  }

  /** The messages handled without an error: a dictionary whose `advanced`
      and `inference`, where present, are dictionaries, and whose `advanced`
      is well formed. */
  predicate WellFormed(parsed: Option<Json>)
  {
    && parsed.Some? && parsed.value.Obj?
    && var data := parsed.value.fields;
    && DictOrAbsent(Member(data, "advanced"))
    && DictOrAbsent(Member(data, "inference"))
    && AdvancedWellFormed(AdvancedOf(data))
  }

  /** The list under `advanced.key` of a message, empty when any level is
      missing or is not of the expected kind. */
  function Samples(data: Json, key: string): seq<Json>
  {
    if data.Obj? then AdvancedSamples(AdvancedOf(data.fields), key) else []
  }

  /** The heart-rate text of a message: `str()` of `inference.hr`, or empty
      when there is none. */
  function HeartRateText(data: Json, repr: Json -> string): string
  {
    if data.Obj? && "inference" in data.fields && data.fields["inference"].Obj?
       && "hr" in data.fields["inference"].fields
    then PyStr(data.fields["inference"].fields["hr"], repr)
    else ""
  }

  /** A message with three samples and an integer heart rate is forwarded
      whole, the rate as its decimal text. */
  lemma ForwardsSamples(repr: Json -> string)
    ensures
      var samples := [Float(0.1), Float(0.2), Float(0.3)];
      var stamps := [Float(1.0), Float(1.01), Float(1.02)];
      var msg := Obj(map[
        "advanced" := Obj(map["rppg" := Arr(samples), "rppg_timestamps" := Arr(stamps)]),
        "inference" := Obj(map["hr" := Int(72)])]);
      HandleServerMessage(Some(msg), repr) == Emitted(samples, stamps, "72")
  {
    var samples := [Float(0.1), Float(0.2), Float(0.3)];
    var stamps := [Float(1.0), Float(1.01), Float(1.02)];
    assert Last(samples, MaxSamples) == samples;
    assert Last(stamps, MaxSamples) == stamps;
    assert NatToDecimal(72) == NatToDecimal(7) + [DigitChar(2)];
  }

  /** Of a longer series only the most recent 256 samples are forwarded. */
  lemma KeepsMostRecent(samples: seq<Json>, repr: Json -> string)
    requires |samples| > MaxSamples
    ensures
      var msg := Obj(map["advanced" := Obj(map["rppg" := Arr(samples)])]);
      HandleServerMessage(Some(msg), repr) == Emitted(samples[|samples| - MaxSamples..], [], "")
  {
  }

  /** A dictionary without `advanced` has no samples: nothing is forwarded,
      and it is an error only when its `inference` is present and not a
      dictionary (the `.get` on it raises). */
  lemma EmptyMessageIgnored(fields: map<string, Json>, repr: Json -> string)
    requires "advanced" !in fields
    ensures HandleServerMessage(Some(Obj(fields)), repr)
         == if DictOrAbsent(Member(fields, "inference")) then NoSamples else Failed
  {
  }

  // ---------------- send_frames ----------------

  /** Seconds slept after a failed camera read. */
  const RetryDelay: real := 0.01
  const CannotOpen: string := "Cannot open camera"

  /** The errors that end the loop: a zero frame rate divides by zero, the
      encoder can fail, and `send` raises once the connection is closed. */
  datatype LoopError = ZeroDivision | EncodeFailed | SendFailed

  /** One pass of the loop as the world answers it: the camera read failed,
      or it gave a frame, which comes with the fresh id and wall-clock text
      of its envelope, whether `send` succeeded, and the monotonic clock
      read just before pacing. */
  datatype ReadStep<Frame> =
    | ReadFailed
    | ReadOk(frame: Frame, id: string, stamp: string, sendOk: bool, now: real)

  /** What the loop does that can be observed from outside. */
  datatype Event<Frame> =
    | Status(message: string)
    | Shown(frame: Frame)
    | Sent(payload: Json)
    | Backoff(seconds: real)
    | Paced(deadline: real, seconds: real)
    | Released

  datatype Exit = Returned | Raised(error: LoopError)

  predicate IsReadOk<Frame>(s: ReadStep<Frame>) { s.ReadOk? }
  predicate IsSent<Frame>(e: Event<Frame>) { e.Sent? }
  predicate IsPaced<Frame>(e: Event<Frame>) { e.Paced? }
  predicate IsBackoff<Frame>(e: Event<Frame>) { e.Backoff? }
  predicate IsShown<Frame>(e: Event<Frame>) { e.Shown? }

  /** The elements of `s` that satisfy `p`, in order. */
  function Filter<T>(s: seq<T>, p: T -> bool): (r: seq<T>)
    ensures |r| <= |s|
    ensures forall k :: 0 <= k < |r| ==> p(r[k])
  {
    if s == [] then [] else Filter(s[..|s| - 1], p) + (if p(s[|s| - 1]) then [s[|s| - 1]] else [])
  }

  lemma FilterSnoc<T>(s: seq<T>, x: T, p: T -> bool)
    ensures Filter(s + [x], p) == Filter(s, p) + (if p(x) then [x] else [])
  {
    assert (s + [x])[..|s|] == s;
  }

  lemma {:induction false} FilterAppend<T>(a: seq<T>, b: seq<T>, p: T -> bool)
    ensures Filter(a + b, p) == Filter(a, p) + Filter(b, p)
  {
    if b != [] {
      var b', x := b[..|b| - 1], b[|b| - 1];
      var tail := if p(x) then [x] else [];
      assert b == b' + [x];
      assert a + b == (a + b') + [x];
      calc {
        Filter(a + b, p);
        { FilterSnoc(a + b', x, p); }
        Filter(a + b', p) + tail;
        { FilterAppend(a, b', p); }
        Filter(a, p) + Filter(b', p) + tail;
        { FilterSnoc(b', x, p); }
        Filter(a, p) + Filter(b, p);
      }
    } else {
      assert a + b == a;
    }
  }

  /** The camera reads that gave a frame. */
  function OkReads<Frame>(steps: seq<ReadStep<Frame>>): (r: seq<ReadStep<Frame>>)
    ensures forall k :: 0 <= k < |r| ==> r[k].ReadOk?
  {
    Filter(steps, IsReadOk)
  }

  /** Splitting the reads at the `i`-th one. */
  lemma OkReadsStep<Frame>(steps: seq<ReadStep<Frame>>, i: nat)
    requires i < |steps|
    ensures OkReads(steps[..i + 1]) == OkReads(steps[..i]) + (if steps[i].ReadOk? then [steps[i]] else [])
    ensures OkReads(steps) == OkReads(steps[..i + 1]) + OkReads(steps[i + 1..])
  {
    var step := steps[i];
    assert steps[..i + 1] == steps[..i] + [step];
    FilterSnoc(steps[..i], step, IsReadOk);
    assert steps == steps[..i + 1] + steps[i + 1..];
    FilterAppend(steps[..i + 1], steps[i + 1..], IsReadOk);
  }

  /** Appending one event to a trace extends each of its filtered views by
      that event or by nothing. */
  lemma SnocEvent<Frame>(trace: seq<Event<Frame>>, e: Event<Frame>)
    ensures Filter(trace + [e], IsSent) == Filter(trace, IsSent) + (if e.Sent? then [e] else [])
    ensures Filter(trace + [e], IsPaced) == Filter(trace, IsPaced) + (if e.Paced? then [e] else [])
    ensures Filter(trace + [e], IsShown) == Filter(trace, IsShown) + (if e.Shown? then [e] else [])
    ensures Filter(trace + [e], IsBackoff) == Filter(trace, IsBackoff) + (if e.Backoff? then [e] else [])
  {
    FilterSnoc(trace, e, IsSent);
    FilterSnoc(trace, e, IsPaced);
    FilterSnoc(trace, e, IsShown);
    FilterSnoc(trace, e, IsBackoff);
  }

  /** A read that failed, or whose frame went through, keeps every frame
      read so far going through. */
  lemma AllFramesGoThroughSnoc<Frame>(steps: seq<ReadStep<Frame>>, i: nat, quality: int, imencode: (Frame, int) -> Imencoded)
    requires i < |steps|
    requires AllFramesGoThrough(steps[..i], quality, imencode)
    requires steps[i].ReadOk? ==> imencode(steps[i].frame, quality).ok && steps[i].sendOk
    ensures AllFramesGoThrough(steps[..i + 1], quality, imencode)
  {
    var done := steps[..i + 1];
    forall k | 0 <= k < |done|
      ensures done[k].ReadOk? ==> imencode(done[k].frame, quality).ok && done[k].sendOk
    {
      if k < i {
        assert done[k] == steps[..i][k];
      }
    }
  }

  /** When the `count`-th frame is due: `start + count / fps`. */
  function Deadline(start: real, fps: real, count: nat): real
    requires fps != 0.0
  {
    start + (count as real) / fps
  }

  /** A sent envelope carries the id and timestamp of its read and the base64
      encoding of the JPEG bytes the encoder made of its frame (which decodes
      back to those bytes, by `Base64.DecodeEncode`). */
  ghost predicate Carries<Frame>(payload: Json, step: ReadStep<Frame>, quality: int, imencode: (Frame, int) -> Imencoded)
  {
    && step.ReadOk?
    && imencode(step.frame, quality).ok
    && step.sendOk
    && PayloadFields(payload).Some?
    && var (id, stamp, data) := PayloadFields(payload).value;
    && id == step.id && stamp == step.stamp
    && data == Base64.Encode(imencode(step.frame, quality).buf)
  }

  /** The `j`-th envelope sent carries the `j`-th frame read. */
  ghost predicate SendsMatch<Frame>(sent: seq<Event<Frame>>, oks: seq<ReadStep<Frame>>, quality: int, imencode: (Frame, int) -> Imencoded)
  {
    && |sent| <= |oks|
    && forall j :: 0 <= j < |sent| ==> sent[j].Sent? && Carries(sent[j].payload, oks[j], quality, imencode)
  }

  /** The `j`-th frame shown is the `j`-th frame read. */
  ghost predicate ShownMatch<Frame>(shown: seq<Event<Frame>>, oks: seq<ReadStep<Frame>>)
  {
    && |shown| <= |oks|
    && forall j :: 0 <= j < |shown| ==> oks[j].ReadOk? && shown[j] == Shown(oks[j].frame)
  }

  lemma ShownMatchSnoc<Frame>(shown: seq<Event<Frame>>, oks: seq<ReadStep<Frame>>, step: ReadStep<Frame>)
    requires ShownMatch(shown, oks) && |shown| < |oks|
    requires step.ReadOk? && oks[|shown|] == step
    ensures ShownMatch(shown + [Shown(step.frame)], oks)
  {
    var s' := shown + [Shown(step.frame)];
    forall j | 0 <= j < |s'|
      ensures oks[j].ReadOk? && s'[j] == Shown(oks[j].frame)
    {
      if j < |shown| {
        assert s'[j] == shown[j];
      }
    }
  }

  /** The `j`-th pacing sleep waits for the `j`-th frame's deadline, as seen
      from the clock reading taken after that frame was sent. */
  ghost predicate PacingMatches<Frame>(paced: seq<Event<Frame>>, oks: seq<ReadStep<Frame>>, start: real, fps: real)
  {
    && |paced| <= |oks|
    && (paced != [] ==> fps != 0.0)
    && forall j :: 0 <= j < |paced| ==>
         oks[j].ReadOk? && fps != 0.0 && paced[j] == Paced(Deadline(start, fps, j), Max0(Deadline(start, fps, j) - oks[j].now))
  }

  lemma SendsMatchSnoc<Frame>(sent: seq<Event<Frame>>, oks: seq<ReadStep<Frame>>, quality: int, imencode: (Frame, int) -> Imencoded, e: Event<Frame>)
    requires SendsMatch(sent, oks, quality, imencode) && |sent| < |oks|
    requires e.Sent? && Carries(e.payload, oks[|sent|], quality, imencode)
    ensures SendsMatch(sent + [e], oks, quality, imencode)
  {
    var s' := sent + [e];
    forall j | 0 <= j < |s'|
      ensures s'[j].Sent? && Carries(s'[j].payload, oks[j], quality, imencode)
    {
      if j < |sent| {
        assert s'[j] == sent[j];
      }
    }
  }

  lemma PacingMatchesSnoc<Frame>(paced: seq<Event<Frame>>, oks: seq<ReadStep<Frame>>, start: real, fps: real, e: Event<Frame>)
    requires PacingMatches(paced, oks, start, fps) && |paced| < |oks|
    requires oks[|paced|].ReadOk? && fps != 0.0
    requires e == Paced(Deadline(start, fps, |paced|), Max0(Deadline(start, fps, |paced|) - oks[|paced|].now))
    ensures PacingMatches(paced + [e], oks, start, fps)
  {
    var p' := paced + [e];
    forall j | 0 <= j < |p'|
      ensures oks[j].ReadOk? && fps != 0.0
        && p'[j] == Paced(Deadline(start, fps, j), Max0(Deadline(start, fps, j) - oks[j].now))
    {
      if j < |paced| {
        assert p'[j] == paced[j];
      }
    }
  }

  /** No status message among the events: the loop only runs once the
      camera is open. */
  ghost predicate NoStatus<Frame>(trace: seq<Event<Frame>>)
  {
    forall k :: 0 <= k < |trace| ==> !trace[k].Status?
  }

  /** Every sleep is of non-negative length, and a retry waits `RetryDelay`. */
  ghost predicate SleepsValid<Frame>(trace: seq<Event<Frame>>)
  {
    forall k :: 0 <= k < |trace| ==>
      (trace[k].Backoff? ==> trace[k].seconds == RetryDelay)
      && (trace[k].Paced? ==> trace[k].seconds >= 0.0)
  }

  /** An event the loop itself emits: a frame shown, an envelope, or a sleep
      of valid length; never a status message nor the release. */
  predicate LoopEvent<Frame>(e: Event<Frame>)
  {
    match e
    case Shown(_) => true
    case Sent(_) => true
    case Backoff(seconds) => seconds == RetryDelay
    case Paced(_, seconds) => seconds >= 0.0
    case Status(_) => false
    case Released => false
  }

  ghost predicate LoopEvents<Frame>(trace: seq<Event<Frame>>)
  {
    forall k :: 0 <= k < |trace| ==> LoopEvent(trace[k])
  }

  lemma LoopEventsSnoc<Frame>(trace: seq<Event<Frame>>, e: Event<Frame>)
    requires LoopEvents(trace) && LoopEvent(e)
    ensures LoopEvents(trace + [e])
  {
    var t := trace + [e];
    forall k | 0 <= k < |t| ensures LoopEvent(t[k]) {
      if k < |trace| {
        assert t[k] == trace[k];
      }
    }
  }

  /** Events of the loop alone: every sleep is valid, there is no status
      message and the camera is not released. */
  lemma LoopEventsMeaning<Frame>(trace: seq<Event<Frame>>)
    requires LoopEvents(trace)
    ensures SleepsValid(trace) && NoStatus(trace) && Released !in trace
  {
  }

  /** Events of the loop followed by the release: every sleep is valid, there
      is no status message and the release comes only last. */
  lemma ReleaseAfter<Frame>(trace: seq<Event<Frame>>)
    requires LoopEvents(trace)
    ensures SleepsValid(trace + [Released]) && NoStatus(trace + [Released]) && Released !in trace
  {
    LoopEventsMeaning(trace);
    var t := trace + [Released];
    forall k | 0 <= k < |t|
      ensures !t[k].Status? && (t[k].Backoff? ==> t[k].seconds == RetryDelay) && (t[k].Paced? ==> t[k].seconds >= 0.0)
    {
      if k < |trace| {
        assert t[k] == trace[k];
      }
    }
  }

  /** Every read frame is encoded and its envelope sent without an error. */
  ghost predicate AllFramesGoThrough<Frame>(steps: seq<ReadStep<Frame>>, quality: int, imencode: (Frame, int) -> Imencoded)
  {
    forall k :: 0 <= k < |steps| ==> steps[k].ReadOk? ==> imencode(steps[k].frame, quality).ok && steps[k].sendOk
  }

  /** The envelopes among the events: one per frame sent, in read order. */
  ghost predicate SentSoFar<Frame>(trace: seq<Event<Frame>>, frameCount: nat, steps: seq<ReadStep<Frame>>,
                                   quality: int, imencode: (Frame, int) -> Imencoded)
  {
    |Filter(trace, IsSent)| == frameCount && SendsMatch(Filter(trace, IsSent), OkReads(steps), quality, imencode)
  }

  /** The pacing sleeps among the events: one per frame sent, in read order. */
  ghost predicate PacedSoFar<Frame>(trace: seq<Event<Frame>>, frameCount: nat, steps: seq<ReadStep<Frame>>,
                                    start: real, fps: real)
  {
    |Filter(trace, IsPaced)| == frameCount && PacingMatches(Filter(trace, IsPaced), OkReads(steps), start, fps)
  }

  /** What the events so far say about the frames read: the frames shown,
      the envelopes and the pacing sleeps match the reads in order, and
      every event is one the loop emits: valid sleeps, no status message and
      no release. */
  ghost predicate TraceSoFar<Frame>(trace: seq<Event<Frame>>, frameCount: nat, steps: seq<ReadStep<Frame>>,
                                    start: real, fps: real, quality: int, imencode: (Frame, int) -> Imencoded)
  {
    && SentSoFar(trace, frameCount, steps, quality, imencode)
    && PacedSoFar(trace, frameCount, steps, start, fps)
    && ShownMatch(Filter(trace, IsShown), OkReads(steps))
    && LoopEvents(trace)
  }

  lemma SendOne<Frame>(trace: seq<Event<Frame>>, frameCount: nat, steps: seq<ReadStep<Frame>>,
                       quality: int, imencode: (Frame, int) -> Imencoded, payload: Json)
    requires SentSoFar(trace, frameCount, steps, quality, imencode) && frameCount < |OkReads(steps)|
    requires Carries(payload, OkReads(steps)[frameCount], quality, imencode)
    ensures SentSoFar(trace + [Sent(payload)], frameCount + 1, steps, quality, imencode)
  {
    FilterSnoc(trace, Sent(payload), IsSent);
    SendsMatchSnoc(Filter(trace, IsSent), OkReads(steps), quality, imencode, Sent(payload));
  }

  lemma PaceOne<Frame>(trace: seq<Event<Frame>>, frameCount: nat, steps: seq<ReadStep<Frame>>, start: real, fps: real)
    requires PacedSoFar(trace, frameCount, steps, start, fps) && frameCount < |OkReads(steps)| && fps != 0.0
    ensures
      var due := Deadline(start, fps, frameCount);
      PacedSoFar(trace + [Paced(due, Max0(due - OkReads(steps)[frameCount].now))], frameCount + 1, steps, start, fps)
  {
    var due := Deadline(start, fps, frameCount);
    var e := Paced(due, Max0(due - OkReads(steps)[frameCount].now));
    FilterSnoc(trace, e, IsPaced);
    PacingMatchesSnoc(Filter(trace, IsPaced), OkReads(steps), start, fps, e);
  }

  /** An event of another kind leaves the envelopes as they were. */
  lemma SentUnchanged<Frame>(trace: seq<Event<Frame>>, e: Event<Frame>, frameCount: nat, steps: seq<ReadStep<Frame>>,
                             quality: int, imencode: (Frame, int) -> Imencoded)
    requires SentSoFar(trace, frameCount, steps, quality, imencode) && !e.Sent?
    ensures SentSoFar(trace + [e], frameCount, steps, quality, imencode)
  {
    FilterSnoc(trace, e, IsSent);
  }

  /** An event of another kind leaves the pacing sleeps as they were. */
  lemma PacedUnchanged<Frame>(trace: seq<Event<Frame>>, e: Event<Frame>, frameCount: nat, steps: seq<ReadStep<Frame>>,
                              start: real, fps: real)
    requires PacedSoFar(trace, frameCount, steps, start, fps) && !e.Paced?
    ensures PacedSoFar(trace + [e], frameCount, steps, start, fps)
  {
    FilterSnoc(trace, e, IsPaced);
  }

  /** The loop's state after its first `i` reads. */
  ghost predicate Progress<Frame>(steps: seq<ReadStep<Frame>>, i: nat, trace: seq<Event<Frame>>, frameCount: nat,
                                  start: real, fps: real, quality: int, imencode: (Frame, int) -> Imencoded)
  {
    && i <= |steps|
    && (i > 0 ==> fps != 0.0)
    && (i == 0 ==> trace == [] && frameCount == 0)
    && frameCount == |OkReads(steps[..i])|
    && TraceSoFar(trace, frameCount, steps, start, fps, quality, imencode)
    && |Filter(trace, IsShown)| == frameCount
    && |Filter(trace, IsBackoff)| == i - frameCount
    && AllFramesGoThrough(steps[..i], quality, imencode)
  }

  /** A failed read adds one back-off sleep and nothing else. */
  lemma ProgressAfterFailedRead<Frame>(steps: seq<ReadStep<Frame>>, i: nat, trace: seq<Event<Frame>>, frameCount: nat,
                                       start: real, fps: real, quality: int, imencode: (Frame, int) -> Imencoded)
    requires i < |steps| && fps != 0.0 && steps[i].ReadFailed?
    requires Progress(steps, i, trace, frameCount, start, fps, quality, imencode)
    ensures Progress(steps, i + 1, trace + [Backoff(RetryDelay)], frameCount, start, fps, quality, imencode)
  {
    OkReadsStep(steps, i);
    AllFramesGoThroughSnoc(steps, i, quality, imencode);
    SnocEvent(trace, Backoff(RetryDelay));
    LoopEventsSnoc(trace, Backoff(RetryDelay));
  }

  /** A frame read is shown before anything can fail; it is the next read
      frame, and if it cannot be encoded or sent, not every frame goes
      through. */
  lemma ShownFrame<Frame>(steps: seq<ReadStep<Frame>>, i: nat, trace: seq<Event<Frame>>, frameCount: nat,
                          start: real, fps: real, quality: int, imencode: (Frame, int) -> Imencoded)
    requires i < |steps| && steps[i].ReadOk?
    requires Progress(steps, i, trace, frameCount, start, fps, quality, imencode)
    ensures TraceSoFar(trace + [Shown(steps[i].frame)], frameCount, steps, start, fps, quality, imencode)
    ensures |Filter(trace + [Shown(steps[i].frame)], IsShown)| == frameCount + 1
    ensures |Filter(trace + [Shown(steps[i].frame)], IsBackoff)| == |Filter(trace, IsBackoff)|
    ensures frameCount < |OkReads(steps)| && OkReads(steps)[frameCount] == steps[i]
    ensures !(imencode(steps[i].frame, quality).ok && steps[i].sendOk) ==> !AllFramesGoThrough(steps, quality, imencode)
  {
    OkReadsStep(steps, i);
    SnocEvent(trace, Shown(steps[i].frame));
    ShownMatchSnoc(Filter(trace, IsShown), OkReads(steps), steps[i]);
    LoopEventsSnoc(trace, Shown(steps[i].frame));
  }

  /** Sending the next frame's envelope and pacing it extends the envelopes
      and the sleeps by one each, both matching that read. */
  lemma SentAndPaced<Frame>(shown: seq<Event<Frame>>, frameCount: nat, steps: seq<ReadStep<Frame>>,
                            start: real, fps: real, quality: int, imencode: (Frame, int) -> Imencoded,
                            step: ReadStep<Frame>, payload: Json)
    requires TraceSoFar(shown, frameCount, steps, start, fps, quality, imencode)
    requires frameCount < |OkReads(steps)| && OkReads(steps)[frameCount] == step && fps != 0.0
    requires Carries(payload, step, quality, imencode)
    ensures
      var due := Deadline(start, fps, frameCount);
      var trace' := shown + [Sent(payload)] + [Paced(due, Max0(due - step.now))];
      && TraceSoFar(trace', frameCount + 1, steps, start, fps, quality, imencode)
      && |Filter(trace', IsShown)| == |Filter(shown, IsShown)|
      && |Filter(trace', IsBackoff)| == |Filter(shown, IsBackoff)|
  {
    var due := Deadline(start, fps, frameCount);
    var pause := Paced(due, Max0(due - step.now));
    var sent := shown + [Sent(payload)];
    var trace' := sent + [pause];
    assert SentSoFar(trace', frameCount + 1, steps, quality, imencode) by {
      SendOne(shown, frameCount, steps, quality, imencode, payload);
      SentUnchanged(sent, pause, frameCount + 1, steps, quality, imencode);
    }
    assert PacedSoFar(trace', frameCount + 1, steps, start, fps) by {
      PacedUnchanged(shown, Sent(payload), frameCount, steps, start, fps);
      PaceOne(sent, frameCount, steps, start, fps);
    }
    assert LoopEvents(trace') by {
      LoopEventsSnoc(shown, Sent(payload));
      LoopEventsSnoc(sent, pause);
    }
    assert Filter(trace', IsShown) == Filter(shown, IsShown) by {
      FilterSnoc(shown, Sent(payload), IsShown);
      FilterSnoc(sent, pause, IsShown);
    }
    assert Filter(trace', IsBackoff) == Filter(shown, IsBackoff) by {
      FilterSnoc(shown, Sent(payload), IsBackoff);
      FilterSnoc(sent, pause, IsBackoff);
    }
  }

  /** A frame read, sent and paced moves the loop past its read. */
  lemma ProgressAfterSentFrame<Frame>(steps: seq<ReadStep<Frame>>, i: nat, trace: seq<Event<Frame>>, frameCount: nat,
                                      start: real, fps: real, quality: int, imencode: (Frame, int) -> Imencoded,
                                      payload: Json, trace': seq<Event<Frame>>)
    requires i < |steps| && fps != 0.0 && steps[i].ReadOk?
    requires Progress(steps, i, trace, frameCount, start, fps, quality, imencode)
    requires Carries(payload, steps[i], quality, imencode)
    requires
      var due := Deadline(start, fps, frameCount);
      trace' == trace + [Shown(steps[i].frame)] + [Sent(payload)] + [Paced(due, Max0(due - steps[i].now))]
    ensures Progress(steps, i + 1, trace', frameCount + 1, start, fps, quality, imencode)
  {
    var shown := trace + [Shown(steps[i].frame)];
    assert TraceSoFar(trace', frameCount + 1, steps, start, fps, quality, imencode)
        && |Filter(trace', IsShown)| == frameCount + 1
        && |Filter(trace', IsBackoff)| == |Filter(trace, IsBackoff)| by {
      ShownFrame(steps, i, trace, frameCount, start, fps, quality, imencode);
      SentAndPaced(shown, frameCount, steps, start, fps, quality, imencode, steps[i], payload);
    }
    OkReadsStep(steps, i);
    AllFramesGoThroughSnoc(steps, i, quality, imencode);
  }

  /** How the loop stopped on `error`: the events so far are consistent,
      and the error has its cause. A zero frame rate fails before the first
      read; an encoder or connection failure is met on the next frame read
      after the `frameCount` sent. */
  ghost predicate Stopped<Frame>(error: LoopError, trace: seq<Event<Frame>>, frameCount: nat, steps: seq<ReadStep<Frame>>,
                                 start: real, fps: real, quality: int, imencode: (Frame, int) -> Imencoded)
  {
    && TraceSoFar(trace, frameCount, steps, start, fps, quality, imencode)
    && match error
       case ZeroDivision => fps == 0.0 && steps != [] && trace == [] && frameCount == 0
       case EncodeFailed =>
         && fps != 0.0 && frameCount < |OkReads(steps)| && !imencode(OkReads(steps)[frameCount].frame, quality).ok
         && |Filter(trace, IsShown)| == frameCount + 1
         && !AllFramesGoThrough(steps, quality, imencode)
       case SendFailed =>
         && fps != 0.0 && frameCount < |OkReads(steps)|
         && imencode(OkReads(steps)[frameCount].frame, quality).ok && !OkReads(steps)[frameCount].sendOk
         && |Filter(trace, IsShown)| == frameCount + 1
         && !AllFramesGoThrough(steps, quality, imencode)
  }

  /** A read frame that cannot be encoded or sent stops the loop after it
      was shown. */
  lemma StopAfterShown<Frame>(steps: seq<ReadStep<Frame>>, i: nat, trace: seq<Event<Frame>>, frameCount: nat,
                              start: real, fps: real, quality: int, imencode: (Frame, int) -> Imencoded, error: LoopError)
    requires i < |steps| && fps != 0.0 && steps[i].ReadOk?
    requires Progress(steps, i, trace, frameCount, start, fps, quality, imencode)
    requires || (error == EncodeFailed && !imencode(steps[i].frame, quality).ok)
             || (error == SendFailed && imencode(steps[i].frame, quality).ok && !steps[i].sendOk)
    ensures Stopped(error, trace + [Shown(steps[i].frame)], frameCount, steps, start, fps, quality, imencode)
  {
    ShownFrame(steps, i, trace, frameCount, start, fps, quality, imencode);
  }

  /** The envelope built from a frame the encoder accepts carries that frame. */
  lemma EnvelopeCarries<Frame>(step: ReadStep<Frame>, quality: int, imencode: (Frame, int) -> Imencoded)
    requires step.ReadOk? && imencode(step.frame, quality).ok && step.sendOk
    ensures EncodeFrameJpeg(step.frame, quality, imencode).Success?
    ensures Carries(BuildPayload(step.id, step.stamp, EncodeFrameJpeg(step.frame, quality, imencode).value), step, quality, imencode)
  {
  }

  /** One pass of the loop, on the `i`-th read: back off after a failed
      read; otherwise show the frame, encode it, send its envelope, count it
      and sleep until its deadline. `raised` is the error that ends the
      coroutine, if any. */
  method ReadOnce<Frame>(fps: real, start: real, quality: int, imencode: (Frame, int) -> Imencoded,
                         steps: seq<ReadStep<Frame>>, i: nat, trace: seq<Event<Frame>>, frameCount: nat)
    returns (trace': seq<Event<Frame>>, frameCount': nat, raised: Option<LoopError>)
    requires i < |steps| && fps != 0.0
    requires Progress(steps, i, trace, frameCount, start, fps, quality, imencode)
    ensures raised.None? ==> Progress(steps, i + 1, trace', frameCount', start, fps, quality, imencode)
    ensures raised.Some? ==> Stopped(raised.value, trace', frameCount', steps, start, fps, quality, imencode)
    // the pass raises exactly when its read gave a frame that cannot be encoded or sent
    ensures raised.Some? <==> steps[i].ReadOk? && !(imencode(steps[i].frame, quality).ok && steps[i].sendOk)
    ensures raised.Some? ==>
      && raised.value == (if imencode(steps[i].frame, quality).ok then SendFailed else EncodeFailed)
      && frameCount' == frameCount && trace' == trace + [Shown(steps[i].frame)]
    // what a completed pass adds to the trace
    ensures steps[i].ReadFailed? ==> trace' == trace + [Backoff(RetryDelay)] && frameCount' == frameCount
    ensures raised.None? && steps[i].ReadOk? ==>
      var due := Deadline(start, fps, frameCount);
      var data := Base64.Encode(imencode(steps[i].frame, quality).buf);
      && frameCount' == frameCount + 1
      && trace' == trace + [Shown(steps[i].frame), Sent(BuildPayload(steps[i].id, steps[i].stamp, data)), Paced(due, Max0(due - steps[i].now))]
  {
    var step := steps[i];
    if step.ReadFailed? {
      ProgressAfterFailedRead(steps, i, trace, frameCount, start, fps, quality, imencode);
      return trace + [Backoff(RetryDelay)], frameCount, None;
    }
    var nextTime := Deadline(start, fps, frameCount);
    trace' := trace + [Shown(step.frame)];
    var encoded := EncodeFrameJpeg(step.frame, quality, imencode);
    if encoded.Failure? {
      StopAfterShown(steps, i, trace, frameCount, start, fps, quality, imencode, EncodeFailed);
      return trace', frameCount, Some(EncodeFailed);
    }
    var payload := BuildPayload(step.id, step.stamp, encoded.value);
    if !step.sendOk {
      StopAfterShown(steps, i, trace, frameCount, start, fps, quality, imencode, SendFailed);
      return trace', frameCount, Some(SendFailed);
    }
    EnvelopeCarries(step, quality, imencode);
    trace' := trace' + [Sent(payload)] + [Paced(nextTime, Max0(nextTime - step.now))];
    ProgressAfterSentFrame(steps, i, trace, frameCount, start, fps, quality, imencode, payload, trace');
    assert trace' == trace + [Shown(step.frame), Sent(payload), Paced(nextTime, Max0(nextTime - step.now))];
    frameCount' := frameCount + 1;
    raised := None;
  }

  /** Before the first read nothing has happened. */
  lemma ProgressAtStart<Frame>(steps: seq<ReadStep<Frame>>, start: real, fps: real, quality: int, imencode: (Frame, int) -> Imencoded)
    ensures Progress(steps, 0, [], 0, start, fps, quality, imencode)
  {
    assert steps[..0] == [] && steps[0..] == steps;
  }

  /** A zero frame rate stops the loop at its first deadline, before any read. */
  lemma StopAtZeroRate<Frame>(steps: seq<ReadStep<Frame>>, start: real, fps: real, quality: int, imencode: (Frame, int) -> Imencoded)
    requires fps == 0.0 && steps != []
    ensures Stopped(ZeroDivision, [], 0, steps, start, fps, quality, imencode)
  {
    ProgressAtStart(steps, start, fps, quality, imencode);
  }

  /** The loop of `send_frames` once the camera is open: it runs until the
      reads run out or an error is raised. */
  method StreamFrames<Frame>(fps: real, start: real, quality: int,
                             imencode: (Frame, int) -> Imencoded, steps: seq<ReadStep<Frame>>)
    returns (trace: seq<Event<Frame>>, frameCount: nat, raised: Option<LoopError>)
    ensures raised.None? ==> Progress(steps, |steps|, trace, frameCount, start, fps, quality, imencode)
    ensures raised.Some? ==> Stopped(raised.value, trace, frameCount, steps, start, fps, quality, imencode)
  {
    trace, frameCount, raised := [], 0, None;
    ProgressAtStart(steps, start, fps, quality, imencode);
    var i := 0;
    while i < |steps|
      invariant Progress(steps, i, trace, frameCount, start, fps, quality, imencode)
      invariant raised.None?
    {
      if fps == 0.0 {
        StopAtZeroRate(steps, start, fps, quality, imencode);
        return [], 0, Some(ZeroDivision);
      }
      trace, frameCount, raised := ReadOnce(fps, start, quality, imencode, steps, i, trace, frameCount);
      if raised.Some? {
        return;
      }
      i := i + 1;
    }
  }

  /** `send_frames`. The camera is opened or not; `steps` lists the reads the
      loop makes while the thread is running, so the loop ends when they run
      out; the result is the trace of observable events, the number of
      frames sent and how the coroutine ended. Each frame is due at
      `start + frameCount / fps`; after sending it the loop sleeps until
      then, or not at all when it is late. */
  method SendFrames<Frame>(cameraOpen: bool, fps: real, start: real, quality: int,
                           imencode: (Frame, int) -> Imencoded, steps: seq<ReadStep<Frame>>)
    returns (trace: seq<Event<Frame>>, frameCount: nat, exit: Exit)
    ensures !cameraOpen ==> trace == [Status(CannotOpen)] && frameCount == 0 && exit == Returned
    ensures cameraOpen && fps == 0.0 && steps != [] ==> trace == [] && exit == Raised(ZeroDivision)
    ensures frameCount <= |OkReads(steps)|
    // every frame sent is recoverable from its envelope, in read order
    ensures |Filter(trace, IsSent)| == frameCount
    ensures SendsMatch(Filter(trace, IsSent), OkReads(steps), quality, imencode)
    // one pacing sleep per frame sent, until that frame's deadline
    ensures |Filter(trace, IsPaced)| == frameCount
    ensures PacingMatches(Filter(trace, IsPaced), OkReads(steps), start, fps)
    ensures SleepsValid(trace)
    // "Cannot open camera" is reported only for a camera that did not open
    ensures cameraOpen ==> NoStatus(trace)
    // the frames shown are the frames read, in read order
    ensures ShownMatch(Filter(trace, IsShown), OkReads(steps))
    // the camera is released exactly when the loop ends normally, as the last event
    ensures Released in trace <==> cameraOpen && exit == Returned
    ensures cameraOpen && exit == Returned ==>
      && frameCount == |OkReads(steps)|
      && |Filter(trace, IsShown)| == frameCount
      && |Filter(trace, IsBackoff)| == |steps| - frameCount
      && trace[|trace| - 1] == Released && Released !in trace[..|trace| - 1]
      && AllFramesGoThrough(steps, quality, imencode)
    // how the loop can fail
    ensures exit == Raised(ZeroDivision) ==> cameraOpen && fps == 0.0 && steps != [] && trace == []
    ensures exit == Raised(EncodeFailed) ==>
      frameCount < |OkReads(steps)| && !imencode(OkReads(steps)[frameCount].frame, quality).ok
    ensures exit == Raised(SendFailed) ==>
      && frameCount < |OkReads(steps)|
      && imencode(OkReads(steps)[frameCount].frame, quality).ok && !OkReads(steps)[frameCount].sendOk
    // the frame that failed was shown first
    ensures exit == Raised(EncodeFailed) || exit == Raised(SendFailed) ==> |Filter(trace, IsShown)| == frameCount + 1
    ensures cameraOpen && (fps != 0.0 || steps == []) && AllFramesGoThrough(steps, quality, imencode) ==> exit == Returned
  {
    if !cameraOpen {
      var none: seq<Event<Frame>> := [];
      SnocEvent(none, Status(CannotOpen));
      assert none + [Status(CannotOpen)] == [Status(CannotOpen)];
      return [Status(CannotOpen)], 0, Returned;
    }
    var raised;
    trace, frameCount, raised := StreamFrames(fps, start, quality, imencode, steps);
    if raised.Some? {
      LoopEventsMeaning(trace);
      return trace, frameCount, Raised(raised.value);
    }
    assert steps[..|steps|] == steps;
    var before := trace;
    SnocEvent(before, Released);
    ReleaseAfter(before);
    trace := before + [Released];
    assert Filter(trace, IsSent) == Filter(before, IsSent);
    assert Filter(trace, IsPaced) == Filter(before, IsPaced);
    assert Filter(trace, IsShown) == Filter(before, IsShown);
    assert trace[..|trace| - 1] == before;
    exit := Returned;
  }
}

=== FILE: capture_helpers.dfy ===
/** The capture worker's configuration and its three pure helpers: the
    backend URL, the JPEG-plus-base64 frame encoding and the outbound
    message envelope. */
module CaptureHelpers {
  import opened Common
  import opened Json
  import opened UrlEncoding
  import Base64

  const ApiKeyName: string := "api_key"
  const ClientKeyName: string := "client"
  const ClientName: string := "qtClient"

  /** Python's `s.rstrip('/')`: the longest prefix of `s` that does not end
      in `/`; only slashes are removed. */
  function RStripSlash(s: string): (r: string)
    ensures |r| <= |s| && r == s[..|r|]
    ensures r == [] || r[|r| - 1] != '/'
    ensures forall i :: |r| <= i < |s| ==> s[i] == '/'
  {
    if s != [] && s[|s| - 1] == '/' then RStripSlash(s[..|s| - 1]) else s
  }

  lemma UrlEncodeTwo(k1: string, v1: string, k2: string, v2: string)
    ensures UrlEncode([(k1, v1), (k2, v2)])
         == QuotePlus(k1) + "=" + QuotePlus(v1) + "&" + QuotePlus(k2) + "=" + QuotePlus(v2)
  {
    var ps := [(k1, v1), (k2, v2)];
    assert ps[1..] == [(k2, v2)];
  }

  lemma ApiKeyNameUnquoted()
    ensures QuotePlus(ApiKeyName) == ApiKeyName
  {
    var t := ApiKeyName;
    forall i | 0 <= i < |t| ensures IsUnreserved(t[i]) { }
    QuotePlusUnreserved(t);
  }

  lemma ClientKeyNameUnquoted()
    ensures QuotePlus(ClientKeyName) == ClientKeyName
  {
    var t := ClientKeyName;
    forall i | 0 <= i < |t| ensures IsUnreserved(t[i]) { }
    QuotePlusUnreserved(t);
  }

  lemma ClientNameUnquoted()
    ensures QuotePlus(ClientName) == ClientName
  {
    var t := ClientName;
    forall i | 0 <= i < |t| ensures IsUnreserved(t[i]) { }
    QuotePlusUnreserved(t);
  }

  lemma QueryNamesQuoted(apiKey: string)
    ensures UrlEncode([(ApiKeyName, apiKey), (ClientKeyName, ClientName)])
         == QuotePlus(ApiKeyName) + "=" + QuotePlus(apiKey) + "&" + QuotePlus(ClientKeyName) + "=" + QuotePlus(ClientName)
  {
    UrlEncodeTwo(ApiKeyName, apiKey, ClientKeyName, ClientName);
  }

  lemma QueryNamesUnquoted(q: string)
    ensures QuotePlus(ApiKeyName) + "=" + q + "&" + QuotePlus(ClientKeyName) + "=" + QuotePlus(ClientName)
         == ApiKeyName + "=" + q + "&" + ClientKeyName + "=" + ClientName
  {
    ApiKeyNameUnquoted();
    ClientKeyNameUnquoted();
    ClientNameUnquoted();
  }

  lemma QueryPrefixed(q: string)
    ensures "/?" + (ApiKeyName + "=" + q + "&" + ClientKeyName + "=" + ClientName)
         == "/?api_key=" + q + "&client=" + ClientName
  {
  }

  lemma QueryShape(apiKey: string)
    ensures "/?" + UrlEncode([(ApiKeyName, apiKey), (ClientKeyName, ClientName)])
         == "/?api_key=" + QuotePlus(apiKey) + "&client=" + ClientName
  {
    QueryNamesQuoted(apiKey);
    QueryNamesUnquoted(QuotePlus(apiKey));
    QueryPrefixed(QuotePlus(apiKey));
  }

  /** `build_ws_url`: the base without trailing slashes, then `/?` and the
      url-encoded parameters `api_key` and `client`, in that order. */
  function BuildWsUrl(base: string, apiKey: string): (url: string)
    ensures url == RStripSlash(base) + ("/?api_key=" + QuotePlus(apiKey) + "&client=" + ClientName)
  {
    QueryShape(apiKey);
    RStripSlash(base) + ("/?" + UrlEncode([(ApiKeyName, apiKey), (ClientKeyName, ClientName)]))
  }

  /** `s` cut at the last occurrence of `c`. */
  function SplitAtLast(s: string, c: char): Option<(string, string)>
  {
    if s == [] then None
    else if s[|s| - 1] == c then Some((s[..|s| - 1], ""))
    else match SplitAtLast(s[..|s| - 1], c)
      case None => None
      case Some((before, after)) => Some((before, after + [s[|s| - 1]]))
  }

  /** Reads a backend URL back into its base and its API key. */
  function SplitWsUrl(url: string): Option<(string, string)>
  {
    match SplitAtLast(url, '?')
    case None => None
    case Some((prefix, query)) =>
      if prefix == [] || prefix[|prefix| - 1] != '/' then None
      else if |query| < 8 || query[..8] != "api_key=" then None
      else match SplitAtFirst(query[8..], '&')
        case None => None
        case Some((encoded, rest)) =>
          if rest != "client=" + ClientName then None
          else match UnquotePlus(encoded)
            case None => None
            case Some(key) => Some((prefix[..|prefix| - 1], key))
  }

  lemma {:induction false} SplitAtLastOf(a: string, c: char, b: string)
    requires c !in b
    ensures SplitAtLast(a + [c] + b, c) == Some((a, b))
  {
    var s := a + [c] + b;
    if b == [] {
      assert s[..|s| - 1] == a;
    } else {
      var b' := b[..|b| - 1];
      assert s[..|s| - 1] == a + [c] + b';
      assert s[|s| - 1] == b[|b| - 1];
      SplitAtLastOf(a, c, b');
      assert b' + [b[|b| - 1]] == b;
    }
  }

  ghost predicate QuotedText(t: string)
  {
    forall i :: 0 <= i < |t| ==> IsUnreserved(t[i]) || t[i] == '+' || t[i] == '%'
  }

  function Query(q: string): string
  {
    "api_key=" + q + "&client=" + ClientName
  }

  lemma QueryAfterSeparator(q: string)
    ensures "/?api_key=" + q + "&client=" + ClientName == "/?" + Query(q)
  {
  }

  lemma RegroupAtSeparator(r: string, y: string)
    ensures r + ("/?" + y) == (r + "/") + ['?'] + y
  {
  }

  lemma UrlAroundQuestionMark(base: string, apiKey: string)
    ensures BuildWsUrl(base, apiKey) == (RStripSlash(base) + "/") + ['?'] + Query(QuotePlus(apiKey))
  {
    QueryAfterSeparator(QuotePlus(apiKey));
    RegroupAtSeparator(RStripSlash(base), Query(QuotePlus(apiKey)));
  }

  lemma QueryWithoutQuestionMark(q: string)
    requires QuotedText(q)
    ensures '?' !in Query(q)
  {
    var t := Query(q);
    forall i | 0 <= i < |t| ensures t[i] != '?' {
      if 8 <= i < 8 + |q| {
        assert t[i] == q[i - 8];
      }
    }
  }

  lemma QueryParts(q: string)
    requires QuotedText(q)
    ensures |Query(q)| >= 8 && Query(q)[..8] == "api_key="
    ensures Query(q)[8..] == q + ['&'] + ("client=" + ClientName)
    ensures '&' !in q
  {
    forall i | 0 <= i < |q| ensures q[i] != '&' { }
  }

  /** The URL names its parts unambiguously: whatever the key, the base
      (without its trailing slashes) and the key are recovered from it. */
  lemma WsUrlRoundTrip(base: string, apiKey: string)
    ensures SplitWsUrl(BuildWsUrl(base, apiKey)) == Some((RStripSlash(base), apiKey))
  {
    var q := QuotePlus(apiKey);
    var prefix := RStripSlash(base) + "/";
    UrlAroundQuestionMark(base, apiKey);
    QueryWithoutQuestionMark(q);
    SplitAtLastOf(prefix, '?', Query(q));
    QueryParts(q);
    SplitAtFirstOf(q, '&', "client=" + ClientName);
    UnquotePlusQuotePlus(apiKey);
    assert prefix[..|prefix| - 1] == RStripSlash(base);
  }

  /** What `cv2.imencode(".jpg", frame, [IMWRITE_JPEG_QUALITY, quality])`
      returned: a success flag and the compressed bytes. */
  datatype Imencoded = Imencoded(ok: bool, buf: seq<Byte>)

  /** `encode_frame_jpeg`: the base64 text of the JPEG bytes, or the error
      raised when the encoder reports failure. The encoder is a parameter.
      The text is `b64encode`'s, so it decodes back to the encoder's bytes. */
  function EncodeFrameJpeg<Frame>(frame: Frame, quality: int, imencode: (Frame, int) -> Imencoded): (r: Result<string, string>)
    ensures !imencode(frame, quality).ok <==> r == Failure("JPEG encoding failed")
    ensures r.Success? ==> r.value == Base64.Encode(imencode(frame, quality).buf)
    ensures r.Success? ==> Base64.Decode(r.value) == Some(imencode(frame, quality).buf)
    ensures r.Success? ==> |r.value| == 4 * ((|imencode(frame, quality).buf| + 2) / 3)
  {
    var encoded := imencode(frame, quality);
    if !encoded.ok then Failure("JPEG encoding failed")
    else
      Base64.DecodeEncode(encoded.buf);
      Success(Base64.Encode(encoded.buf))
  }

  const PayloadKeys: set<string> := {"datapt_id", "state", "timestamp", "frame_data", "advanced"}

  /** `build_payload`: the outbound envelope of one frame. */
  function BuildPayload(datapointId: string, timestamp: string, frameB64: string): (p: Json)
    ensures p.Obj? && p.fields.Keys == PayloadKeys
    ensures p.fields["state"] == Str("stream") && p.fields["advanced"] == Bool(true)
    ensures PayloadFields(p) == Some((datapointId, timestamp, frameB64))
  {
    Obj(map[
      "datapt_id" := Str(datapointId),
      "state" := Str("stream"),
      "timestamp" := Str(timestamp),
      "frame_data" := Str(frameB64),
      "advanced" := Bool(true)])
  }

  /** Reads an envelope back: its id, timestamp and frame data, when it has
      exactly the five keys with the fixed `state` and `advanced`. */
  function PayloadFields(p: Json): Option<(string, string, string)>
  {
    if p.Obj? && p.fields.Keys == PayloadKeys
       && p.fields["state"] == Str("stream") && p.fields["advanced"] == Bool(true)
       && p.fields["datapt_id"].Str? && p.fields["timestamp"].Str? && p.fields["frame_data"].Str?
    then Some((p.fields["datapt_id"].s, p.fields["timestamp"].s, p.fields["frame_data"].s))
    else None
  }
}

=== FILE: common.dfy ===
/** Small shared vocabulary: the failure-carrying datatypes and the
    Python slicing helpers that several modules of the dashboard use. */
module Common {

  datatype Option<+T> = None | Some(value: T)

  datatype Result<+T, +E> = Success(value: T) | Failure(error: E)

  type Byte = x: int | 0 <= x < 256

  function Min(a: int, b: int): int
  {
    if a <= b then a else b
  }

  /** Python's `max(0, x)`: never negative, and equal to `x` when `x` is not. */
  function Max0(x: real): (r: real)
    ensures r >= 0.0 && r >= x
    ensures r == x || r == 0.0
  {
    if x < 0.0 then 0.0 else x
  }

  /** `r` is a contiguous trailing part of `s`. */
  ghost predicate IsSuffix<T>(r: seq<T>, s: seq<T>)
  {
    |r| <= |s| && r == s[|s| - |r|..]
  }

  /** Python's slice `s[-n:]` for a positive `n`: the last `n` elements of
      `s`, or the whole of `s` when it is shorter than that. */
  function Last<T>(s: seq<T>, n: nat): (r: seq<T>)
    requires n > 0
    ensures |r| == Min(|s|, n)
    ensures IsSuffix(r, s)
  {
    if |s| <= n then s else s[|s| - n..]
  }

  /** Dropping a prefix that leaves at least the window's worth of elements
      does not change the window. */
  lemma LastOfDrop<T>(s: seq<T>, j: nat, n: nat)
    requires n > 0 && j <= |s| && |s| - j >= Min(|s|, n)
    ensures Last(s[j..], n) == Last(s, n)
  {
    if |s| > n {
      assert s[j..][|s| - j - n..] == s[|s| - n..];
    }
  }

  /** Taking the last `n` elements before appending more, and again after,
      gives the last `n` elements of everything: a bounded window fed in
      chunks always shows the most recent `n` items in arrival order. */
  lemma LastOfAppend<T>(a: seq<T>, b: seq<T>, n: nat)
    requires n > 0
    ensures Last(Last(a, n) + b, n) == Last(a + b, n)
  {
    var j := |a| - |Last(a, n)|;
    assert (a + b)[j..] == Last(a, n) + b;
    LastOfDrop(a + b, j, n);
  }
}

=== FILE: dashboard.dfy ===
/** The health dashboard's sample pipeline: a staging buffer filled in bursts
    by inference updates, drained by a fixed-cadence timer into a sliding
    plot window of bounded length. */
module Dashboard {
  import opened Common

  /** Pairs moved from the staging buffer to the plot on one timer tick. */
  const SliceNumber: nat := 3
  /** Length of the plot window. */
  const PointsToPlot: nat := 500
  /** Span of x-axis time given to each inference update. */
  const StepSize: int := 10
  const InitialHeartLabel: string := "Heart Rate: -- bpm"

  /** numpy's `linspace(start, stop, num)` with its default `endpoint=True`,
      over exact reals: `num` evenly spaced values from `start` to `stop`. */
  function Linspace(start: real, stop: real, num: nat): (r: seq<real>)
    ensures |r| == num
    ensures num >= 1 ==> r[0] == start
    ensures num >= 2 ==> r[num - 1] == stop
  {
    if num == 0 then []
    else if num == 1 then [start]
    else
      ScaleBack(stop - start, (num - 1) as real);
      seq(num, i requires 0 <= i < num => start + (stop - start) * (i as real) / ((num - 1) as real))
  }

  lemma ScaleBack(x: real, d: real)
    requires d > 0.0
    ensures x * d / d == x
  {
  }

  /** The generated times never go backwards when the span is ascending. */
  lemma LinspaceAscending(start: real, stop: real, num: nat, i: nat, j: nat)
    requires start <= stop && i <= j < num
    ensures Linspace(start, stop, num)[i] <= Linspace(start, stop, num)[j]
  {
    if num > 1 {
      var d := (num - 1) as real;
      var w := stop - start;
      assert w * (i as real) <= w * (j as real) by {
        assert w * (j as real) - w * (i as real) == w * ((j - i) as real);
      }
      DivideMonotone(w * (i as real), w * (j as real), d);
    }
  }

  lemma DivideMonotone(x: real, y: real, d: real)
    requires x <= y && d > 0.0
    ensures x / d <= y / d
  {
    assert y / d - x / d == (y - x) / d;
  }

  function HeartLabel(heartRate: string): string
  {
    "Heart Rate: " + heartRate + " bpm"
  }

  /** The main window's sample state. Sample values are opaque: they are only
      copied from the staging buffer to the plot. */
  class HealthDashboard<Sample> {
    // staging buffer, filled by inference updates
    var bufferTime: seq<real>
    var bufferY: seq<Sample>
    // plot window
    var xData: seq<real>
    var yData: seq<Sample>
    var beginTime: int
    const stepSize: int
    var heartLabel: string

    // every pair ever staged, and every pair ever moved to the plot
    ghost var arrivedTime: seq<real>
    ghost var arrivedY: seq<Sample>
    ghost var drainedTime: seq<real>
    ghost var drainedY: seq<Sample>

    /** The two buffers stay parallel; nothing is lost or reordered between
        arrival and the plot; the window is the most recent part of what
        was drained. */
    ghost predicate Valid()
      reads this
    {
      && stepSize == StepSize
      && |bufferTime| == |bufferY|
      && |drainedTime| == |drainedY|
      && arrivedTime == drainedTime + bufferTime
      && arrivedY == drainedY + bufferY
      && xData == Last(drainedTime, PointsToPlot)
      && yData == Last(drainedY, PointsToPlot)
    }

    constructor ()
      ensures Valid()
      ensures bufferTime == [] && bufferY == [] && xData == [] && yData == []
      ensures beginTime == 0 && stepSize == 10 && heartLabel == InitialHeartLabel
      ensures arrivedY == [] && drainedY == []
    {
      bufferTime, bufferY := [], [];
      xData, yData := [], [];
      beginTime := 0;
      stepSize := StepSize;
      heartLabel := InitialHeartLabel;
      arrivedTime, arrivedY := [], [];
      drainedTime, drainedY := [], [];
    }

    /** The plot window has equal-length axes, never exceeds its cap, and
        holds the most recently drained pairs in arrival order: once at
        least `PointsToPlot` pairs have been drained, exactly the last
        `PointsToPlot` of them. */
    lemma Window()
      requires Valid()
      ensures |xData| == |yData| == Min(|drainedY|, PointsToPlot) <= PointsToPlot
      ensures xData == drainedTime[|drainedTime| - |xData|..]
      ensures yData == drainedY[|drainedY| - |yData|..]
    {
    }

    /** Slot for the camera widget's data signal. The backend timestamps are
        not used: the update gets `stepSize` seconds of x axis, split evenly
        over its samples. */
    method UpdateFromCamera(rppgList: seq<Sample>, rppgTimestamps: seq<real>, heartRate: string)
      requires Valid()
      modifies this
      ensures Valid()
      ensures rppgList == [] ==> unchanged(this)
      ensures rppgList != [] ==>
        && bufferY == old(bufferY) + rppgList
        && bufferTime == old(bufferTime) + Linspace(old(beginTime) as real, (old(beginTime) + stepSize) as real, |rppgList|)
        && beginTime == old(beginTime) + StepSize
        && heartLabel == HeartLabel(heartRate)
        && xData == old(xData) && yData == old(yData)
        && arrivedY == old(arrivedY) + rppgList
        && arrivedTime == old(arrivedTime) + Linspace(old(beginTime) as real, (old(beginTime) + stepSize) as real, |rppgList|)
        && drainedY == old(drainedY) && drainedTime == old(drainedTime)
    {
      if rppgList != [] {
        var times := Linspace(beginTime as real, (beginTime + stepSize) as real, |rppgList|);
        bufferY := bufferY + rppgList;
        bufferTime := bufferTime + times;
        arrivedY := arrivedY + rppgList;
        arrivedTime := arrivedTime + times;
        beginTime := beginTime + stepSize;
        heartLabel := HeartLabel(heartRate);
      }
    }

    /** Timer slot, every 50 ms: when more than one pair is staged, move up to
        `SliceNumber` pairs from the front of the buffer to the end of the
        plot, then keep only the last `PointsToPlot` of the plot. */
    method CheckBuffer()
      requires Valid()
      modifies this
      ensures Valid()
      ensures |old(bufferTime)| <= 1 ==> unchanged(this)
      ensures |old(bufferTime)| > 1 ==>
        var k := Min(SliceNumber, |old(bufferTime)|);
        && bufferTime == old(bufferTime)[k..] && bufferY == old(bufferY)[k..]
        && xData == Last(old(xData) + old(bufferTime)[..k], PointsToPlot)
        && yData == Last(old(yData) + old(bufferY)[..k], PointsToPlot)
        && drainedTime == old(drainedTime) + old(bufferTime)[..k]
        && drainedY == old(drainedY) + old(bufferY)[..k]
        && (old(yData) + old(bufferY)[..k]) + bufferY == old(yData) + old(bufferY)
        && (old(xData) + old(bufferTime)[..k]) + bufferTime == old(xData) + old(bufferTime)
      ensures beginTime == old(beginTime) && heartLabel == old(heartLabel)
      ensures arrivedTime == old(arrivedTime) && arrivedY == old(arrivedY)
    {
      if |bufferTime| > 1 {
        var k := Min(SliceNumber, |bufferTime|);
        var chunkY, chunkTime := bufferY[..k], bufferTime[..k];
        LastOfAppend(drainedY, chunkY, PointsToPlot);
        LastOfAppend(drainedTime, chunkTime, PointsToPlot);
        yData := yData + chunkY;
        xData := xData + chunkTime;
        bufferY := bufferY[k..];
        bufferTime := bufferTime[k..];
        drainedY := drainedY + chunkY;
        drainedTime := drainedTime + chunkTime;
        assert arrivedY == drainedY + bufferY by {
          assert old(bufferY) == chunkY + bufferY;
        }
        assert arrivedTime == drainedTime + bufferTime by {
          assert old(bufferTime) == chunkTime + bufferTime;
        }
        if |xData| > PointsToPlot {
          xData := Last(xData, PointsToPlot);
          yData := Last(yData, PointsToPlot);
        }
      }
    }
  }
}

=== FILE: json.dfy ===
/** A JSON document after parsing, as the Python side holds it: objects are
    dictionaries, integers and floats are told apart. */
module Json {
  import opened Common

  datatype Json =
    | Null
    | Bool(b: bool)
    | Int(i: int)
    | Float(f: real)
    | Str(s: string)
    | Arr(items: seq<Json>)
    | Obj(fields: map<string, Json>)

  /** Python's `d.get(key, default)`; None stands for the AttributeError
      raised when `d` is not a dictionary. */
  function Get(d: Json, key: string, default: Json): Option<Json>
  {
    if !d.Obj? then None else Some(GetOr(d.fields, key, default))
  }

  /** `d.get(key, default)` on a value known to be a dictionary. */
  function GetOr(d: map<string, Json>, key: string, default: Json): Json
  {
    if key in d then d[key] else default
  }
}

=== FILE: music_player.dfy ===
/** The music-player panel's simulated playback: a play/pause toggle that
    starts and stops a progress timer, and the timer slot that advances the
    progress bar and wraps it back to zero. */
module MusicPlayer {
  const PlayIcon: string := "icons/play.svg"
  const PauseIcon: string := "icons/pause.svg"
  /** Milliseconds between progress ticks while playing. */
  const TickInterval: int := 200
  /** The progress bar's range is Qt's default, 0 to 100. */
  const MaxProgress: int := 100

  /** The progress value after one tick: one more, or back to zero from the
      end of the bar. */
  function NextProgress(v: int): (r: int)
    requires 0 <= v <= MaxProgress
    ensures 0 <= r <= MaxProgress
    ensures r == (v + 1) % (MaxProgress + 1)
  {
    NextResidue(v);
    if v < MaxProgress then v + 1 else 0
  }

  /** The progress value after `n` ticks from an empty bar. */
  function ProgressAfter(n: nat): (r: int)
    ensures 0 <= r <= MaxProgress
  {
    if n == 0 then 0 else NextProgress(ProgressAfter(n - 1))
  }

  /** Progress cycles through the 101 values of the bar: after `n` ticks it
      shows `n mod 101`. */
  lemma {:induction false} ProgressCycles(n: nat)
    ensures ProgressAfter(n) == n % (MaxProgress + 1)
  {
    if n > 0 {
      ProgressCycles(n - 1);
      NextResidue(n - 1);
    }
  }

  /** Counting on by one moves the remainder modulo 101 on by one, wrapping
      from 100 to 0. */
  lemma NextResidue(m: nat)
    ensures (m + 1) % 101 == (if m % 101 < 100 then m % 101 + 1 else 0)
  {
    var q, r := m / 101, m % 101;
    assert m + 1 == q * 101 + (r + 1);
    if r < 100 {
      assert (m + 1) % 101 == r + 1;
    } else {
      assert m + 1 == (q + 1) * 101;
    }
  }

  class MusicPlayerWidget {
    var playing: bool
    /** Whether the progress timer is running, and its interval in ms. */
    var timerActive: bool
    var timerInterval: int
    var progress: int
    var playIcon: string

    /** The bar stays in range; the timer runs exactly while playing, at the
        tick interval; the button shows pause while playing and play
        otherwise. */
    ghost predicate Valid()
      reads this
    {
      && 0 <= progress <= MaxProgress
      && timerActive == playing
      && (playing ==> timerInterval == TickInterval)
      && playIcon == (if playing then PauseIcon else PlayIcon)
    }

    constructor ()
      ensures Valid()
      ensures !playing && !timerActive && progress == 0 && playIcon == PlayIcon
    {
      playing := false;
      timerActive := false;
      timerInterval := 0;
      progress := 0;
      playIcon := PlayIcon;
    }

    /** The play button's slot: flips between playing and paused, starting
        the timer at the tick interval or stopping it. Progress is kept. */
    method TogglePlay()
      requires Valid()
      modifies this
      ensures Valid()
      ensures playing == !old(playing)
      ensures progress == old(progress)
      ensures playing ==> timerActive && timerInterval == TickInterval && playIcon == PauseIcon
      ensures !playing ==> !timerActive && timerInterval == old(timerInterval) && playIcon == PlayIcon
    {
      playing := !playing;
      if playing {
        playIcon := PauseIcon;
        timerActive, timerInterval := true, TickInterval;
      } else {
        playIcon := PlayIcon;
        timerActive := false;
      }
    }

    /** The timer's slot: one tick of progress. Nothing else changes. */
    method UpdateProgress()
      requires Valid()
      modifies this
      ensures Valid()
      ensures progress == NextProgress(old(progress))
      ensures playing == old(playing) && timerActive == old(timerActive)
      ensures timerInterval == old(timerInterval) && playIcon == old(playIcon)
    {
      var val := progress;
      if val < MaxProgress {
        progress := val + 1;
      } else {
        progress := 0;
      }
    }
  }

  /** Pressing the button twice restores the playing state, the timer's
      state, the icon and the progress, from either state. */
  method ToggleTwice(w: MusicPlayerWidget)
    requires w.Valid()
    modifies w
    ensures w.Valid()
    ensures w.playing == old(w.playing) && w.timerActive == old(w.timerActive)
    ensures w.playIcon == old(w.playIcon) && w.progress == old(w.progress)
  {
    w.TogglePlay();
    w.TogglePlay();
  }
}

=== FILE: url.dfy ===
/** Query-string encoding as Python's `urllib.parse.urlencode` does it with
    its default `quote_plus`: a value is encoded to UTF-8, and every byte
    other than an ASCII letter, a digit or one of `_.-~` becomes `%XX`
    (upper-case hex), except the space, which becomes `+`. */
module UrlEncoding {
  import opened Common

  /** Characters `quote_plus` always leaves as they are. */
  predicate IsUnreserved(c: char)
  {
    'A' <= c <= 'Z' || 'a' <= c <= 'z' || '0' <= c <= '9' || c == '_' || c == '.' || c == '-' || c == '~'
  }

  predicate IsScalar(cp: int)
  {
    0 <= cp < 0xD800 || 0xE000 <= cp < 0x11_0000
  }

  // ---------------- UTF-8 ----------------

  predicate IsContinuation(b: Byte)
  {
    0x80 <= b < 0xC0
  }

  /** The UTF-8 encoding of one character (RFC 3629, section 3). */
  function Utf8Char(c: char): (bs: seq<Byte>)
    ensures 1 <= |bs| <= 4
    ensures |bs| == 1 <==> (c as int) < 0x80
    ensures |bs| == 1 ==> bs[0] == c as int
  {
    var cp := c as int;
    if cp < 0x80 then [cp]
    else if cp < 0x800 then [0xC0 + cp / 64, 0x80 + cp % 64]
    else if cp < 0x1_0000 then [0xE0 + cp / 4096, 0x80 + (cp / 64) % 64, 0x80 + cp % 64]
    else [0xF0 + cp / 262144, 0x80 + (cp / 4096) % 64, 0x80 + (cp / 64) % 64, 0x80 + cp % 64]
  }

  function Utf8Encode(s: string): seq<Byte>
  {
    if s == [] then [] else Utf8Char(s[0]) + Utf8Encode(s[1..])
  }

  /** The first character of a UTF-8 byte sequence and how many bytes it
      took, or None when the bytes do not start with a well-formed one. */
  function DecodeChar(bs: seq<Byte>): (r: Option<(char, nat)>)
    requires |bs| > 0
    ensures r.Some? ==> 1 <= r.value.1 <= |bs|
  {
    var b0: int := bs[0];
    if b0 < 0x80 then Some((b0 as char, 1))
    else if 0xC0 <= b0 < 0xE0 && |bs| >= 2 && IsContinuation(bs[1]) then
      var cp := (b0 - 0xC0) * 64 + (bs[1] as int - 0x80);
      if IsScalar(cp) then Some((cp as char, 2)) else None
    else if 0xE0 <= b0 < 0xF0 && |bs| >= 3 && IsContinuation(bs[1]) && IsContinuation(bs[2]) then
      var cp := (b0 - 0xE0) * 4096 + (bs[1] as int - 0x80) * 64 + (bs[2] as int - 0x80);
      if IsScalar(cp) then Some((cp as char, 3)) else None
    else if 0xF0 <= b0 < 0xF8 && |bs| >= 4 && IsContinuation(bs[1]) && IsContinuation(bs[2]) && IsContinuation(bs[3]) then
      var cp := (b0 - 0xF0) * 262144 + (bs[1] as int - 0x80) * 4096 + (bs[2] as int - 0x80) * 64 + (bs[3] as int - 0x80);
      if IsScalar(cp) then Some((cp as char, 4)) else None
    else None
  }

  function Utf8Decode(bs: seq<Byte>): Option<string>
    decreases |bs|
  {
    if bs == [] then Some([])
    else match DecodeChar(bs)
      case None => None
      case Some((c, n)) =>
        match Utf8Decode(bs[n..])
        case None => None
        case Some(rest) => Some([c] + rest)
  }

  lemma Split64(x: int)
    requires x >= 0
    ensures x == (x / 64) * 64 + x % 64 && 0 <= x % 64 < 64
  {
  }

  lemma DecodeCharOfUtf8Char(c: char, rest: seq<Byte>)
    ensures DecodeChar(Utf8Char(c) + rest) == Some((c, |Utf8Char(c)|))
  {
    var cp := c as int;
    var bs := Utf8Char(c) + rest;
    if cp < 0x80 {
    } else if cp < 0x800 {
      Split64(cp);
      assert (bs[0] as int - 0xC0) * 64 + (bs[1] as int - 0x80) == cp;
    } else if cp < 0x1_0000 {
      Split64(cp);
      Split64(cp / 64);
      assert cp / 64 / 64 == cp / 4096;
      assert (bs[0] as int - 0xE0) * 4096 + (bs[1] as int - 0x80) * 64 + (bs[2] as int - 0x80) == cp;
    } else {
      Split64(cp);
      Split64(cp / 64);
      Split64(cp / 4096);
      assert cp / 64 / 64 == cp / 4096;
      assert cp / 4096 / 64 == cp / 262144;
      assert (bs[0] as int - 0xF0) * 262144 + (bs[1] as int - 0x80) * 4096 + (bs[2] as int - 0x80) * 64 + (bs[3] as int - 0x80) == cp;
    }
  }

  /** UTF-8 is decodable: decoding an encoding gives the characters back. */
  lemma {:induction false} Utf8RoundTrip(s: string)
    ensures Utf8Decode(Utf8Encode(s)) == Some(s)
  {
    if s != [] {
      var head := Utf8Char(s[0]);
      var bs := Utf8Encode(s);
      assert bs == head + Utf8Encode(s[1..]);
      DecodeCharOfUtf8Char(s[0], Utf8Encode(s[1..]));
      assert bs[|head|..] == Utf8Encode(s[1..]);
      Utf8RoundTrip(s[1..]);
      assert s == [s[0]] + s[1..];
    }
  }

  // ---------------- percent-encoding ----------------

  function HexDigit(v: int): (c: char)
    requires 0 <= v < 16
    ensures IsUnreserved(c) && IsHexDigit(c) && HexValue(c) == v
  {
    if v < 10 then ('0' as int + v) as char else ('A' as int + v - 10) as char
  }

  predicate IsHexDigit(c: char)
  {
    '0' <= c <= '9' || 'A' <= c <= 'F' || 'a' <= c <= 'f'
  }

  function HexValue(c: char): (v: int)
    requires IsHexDigit(c)
    ensures 0 <= v < 16
  {
    if '0' <= c <= '9' then c as int - '0' as int
    else if 'A' <= c <= 'F' then c as int - 'A' as int + 10
    else c as int - 'a' as int + 10
  }

  /** `quote_plus` on one byte of the UTF-8 encoding. */
  function QuoteByte(b: Byte): (t: string)
    ensures forall i :: 0 <= i < |t| ==> IsUnreserved(t[i]) || t[i] == '+' || t[i] == '%'
  {
    if b < 0x80 && IsUnreserved(b as char) then [b as char]
    else if b == 0x20 then "+"
    else ['%', HexDigit(b / 16), HexDigit(b % 16)]
  }

  function QuoteBytes(bs: seq<Byte>): (t: string)
    ensures forall i :: 0 <= i < |t| ==> IsUnreserved(t[i]) || t[i] == '+' || t[i] == '%'
  {
    if bs == [] then [] else QuoteByte(bs[0]) + QuoteBytes(bs[1..])
  }

  /** Python's `quote_plus(s)` with its default `safe=''`: the result uses
      only unreserved characters, `+` and `%`, so it contains none of the
      delimiters `/`, `?`, `&`, `=` of a URL. */
  function QuotePlus(s: string): (t: string)
    ensures forall i :: 0 <= i < |t| ==> IsUnreserved(t[i]) || t[i] == '+' || t[i] == '%'
  {
    QuoteBytes(Utf8Encode(s))
  }

  /** Reverses `QuoteBytes`: `%XX` is a byte, `+` a space, any other
      character stands for its own UTF-8 bytes. */
  function UnquoteBytes(t: string): Option<seq<Byte>>
    decreases |t|
  {
    if t == [] then Some([])
    else
      var step: Option<(seq<Byte>, nat)> :=
        if t[0] == '%' then
          if |t| >= 3 && IsHexDigit(t[1]) && IsHexDigit(t[2]) then Some(([HexValue(t[1]) * 16 + HexValue(t[2])], 3))
          else None
        else if t[0] == '+' then Some(([0x20], 1))
        else Some((Utf8Char(t[0]), 1));
      match step
      case None => None
      case Some((bytes, n)) =>
        match UnquoteBytes(t[n..])
        case None => None
        case Some(rest) => Some(bytes + rest)
  }

  /** The inverse of `QuotePlus`, as Python's `unquote_plus` computes it on
      well-formed input. */
  function UnquotePlus(t: string): Option<string>
  {
    match UnquoteBytes(t)
    case None => None
    case Some(bs) => Utf8Decode(bs)
  }

  lemma UnquoteQuoteByte(b: Byte, rest: string, tail: seq<Byte>)
    requires UnquoteBytes(rest) == Some(tail)
    ensures UnquoteBytes(QuoteByte(b) + rest) == Some([b] + tail)
  {
    var t := QuoteByte(b) + rest;
    if b < 0x80 && IsUnreserved(b as char) {
      assert t[1..] == rest;
    } else if b == 0x20 {
      assert t[1..] == rest;
    } else {
      assert t[3..] == rest;
      assert HexValue(t[1]) * 16 + HexValue(t[2]) == b;
    }
  }

  lemma {:induction false} UnquoteQuoteBytes(bs: seq<Byte>)
    ensures UnquoteBytes(QuoteBytes(bs)) == Some(bs)
  {
    if bs != [] {
      UnquoteQuoteBytes(bs[1..]);
      UnquoteQuoteByte(bs[0], QuoteBytes(bs[1..]), bs[1..]);
      assert bs == [bs[0]] + bs[1..];
    }
  }

  /** Round trip: `unquote_plus(quote_plus(s)) == s` for every string. */
  lemma UnquotePlusQuotePlus(s: string)
    ensures UnquotePlus(QuotePlus(s)) == Some(s)
  {
    UnquoteQuoteBytes(Utf8Encode(s));
    Utf8RoundTrip(s);
  }

  /** A string made only of unreserved characters is left as it is. */
  lemma {:induction false} QuotePlusUnreserved(s: string)
    requires forall i :: 0 <= i < |s| ==> IsUnreserved(s[i])
    ensures QuotePlus(s) == s
  {
    if s != [] {
      QuotePlusUnreserved(s[1..]);
      assert Utf8Encode(s) == [s[0] as int] + Utf8Encode(s[1..]);
      assert QuoteBytes(Utf8Encode(s)) == [s[0]] + QuoteBytes(Utf8Encode(s[1..]));
      assert s == [s[0]] + s[1..];
    }
  }

  /** `urlencode` of a list of pairs: `key=value` pairs, both quoted, joined
      with `&`, in the order given. */
  function UrlEncode(params: seq<(string, string)>): (q: string)
    ensures q == "" <==> params == []
  {
    if params == [] then ""
    else
      var first := QuotePlus(params[0].0) + "=" + QuotePlus(params[0].1);
      if |params| == 1 then first else first + "&" + UrlEncode(params[1..])
  }

  /** Quoted text holds none of the query delimiters `&` and `=`. */
  lemma QuotePlusDelimiters(s: string)
    ensures '&' !in QuotePlus(s) && '=' !in QuotePlus(s)
  {
    var t := QuotePlus(s);
    forall i | 0 <= i < |t| ensures t[i] != '&' && t[i] != '=' { }
  }

  /** `s` cut at the first occurrence of `c`. */
  function SplitAtFirst(s: string, c: char): (r: Option<(string, string)>)
    ensures r.None? <==> c !in s
    ensures r.Some? ==> c !in r.value.0 && s == r.value.0 + [c] + r.value.1
  {
    if s == [] then None
    else if s[0] == c then Some(("", s[1..]))
    else match SplitAtFirst(s[1..], c)
      case None => None
      case Some((before, after)) => Some(([s[0]] + before, after))
  }

  lemma {:induction false} SplitAtFirstOf(a: string, c: char, b: string)
    requires c !in a
    ensures SplitAtFirst(a + [c] + b, c) == Some((a, b))
  {
    var s := a + [c] + b;
    if a == [] {
      assert s[1..] == b;
    } else {
      assert s[0] == a[0] && s[0] != c;
      assert s[1..] == a[1..] + [c] + b;
      SplitAtFirstOf(a[1..], c, b);
      assert [a[0]] + a[1..] == a;
    }
  }

  /** One `key=value` field of a query, both sides unquoted. */
  function ParsePair(field: string): Option<(string, string)>
  {
    match SplitAtFirst(field, '=')
    case None => None
    case Some((key, value)) =>
      match (UnquotePlus(key), UnquotePlus(value))
      case (Some(k), Some(v)) => Some((k, v))
      case _ => None
  }

  /** The `&`-separated fields of a non-empty query, in order. */
  function ParseFields(q: string): Option<seq<(string, string)>>
    decreases |q|
  {
    match SplitAtFirst(q, '&')
    case None =>
      (match ParsePair(q)
       case None => None
       case Some(p) => Some([p]))
    case Some((field, rest)) =>
      match (ParsePair(field), ParseFields(rest))
      case (Some(p), Some(ps)) => Some([p] + ps)
      case _ => None
  }

  /** Reads a query string back into its pairs. */
  function ParseQuery(q: string): Option<seq<(string, string)>>
  {
    if q == "" then Some([]) else ParseFields(q)
  }

  lemma EncodedPairParses(k: string, v: string)
    ensures '&' !in QuotePlus(k) + "=" + QuotePlus(v)
    ensures ParsePair(QuotePlus(k) + "=" + QuotePlus(v)) == Some((k, v))
  {
    QuotePlusDelimiters(k);
    QuotePlusDelimiters(v);
    SplitAtFirstOf(QuotePlus(k), '=', QuotePlus(v));
    UnquotePlusQuotePlus(k);
    UnquotePlusQuotePlus(v);
  }

  /** `urlencode` loses nothing: the query reads back to the pairs it was
      made of, in order, whatever their keys and values. */
  lemma {:induction false} UrlEncodeRoundTrip(params: seq<(string, string)>)
    ensures ParseQuery(UrlEncode(params)) == Some(params)
  {
    if params != [] {
      UrlEncodeFields(params);
    }
  }

  lemma {:induction false} UrlEncodeFields(params: seq<(string, string)>)
    requires params != []
    ensures ParseFields(UrlEncode(params)) == Some(params)
  {
    var (k, v) := params[0];
    var first := QuotePlus(k) + "=" + QuotePlus(v);
    EncodedPairParses(k, v);
    if |params| == 1 {
      assert params == [(k, v)];
    } else {
      UrlEncodeFields(params[1..]);
      SplitAtFirstOf(first, '&', UrlEncode(params[1..]));
      assert UrlEncode(params) == first + ['&'] + UrlEncode(params[1..]);
      assert params == [(k, v)] + params[1..];
    }
  }
}
